=== FILE: README.md ===
# Interview AI core in Dafny

This project models the core of an AI-driven technical interview service. A
candidate starts an interview on a subject at an initial difficulty. The service
asks a language-model provider for one question at a time and has the provider
evaluate each answer. After each answer it adapts the next question's difficulty
to the last three scores. Once the configured number of questions is answered it
produces a final report. Sessions live in an in-memory store and expire after an
idle timeout. A separate speech endpoint validates an uploaded audio file before
transcribing it.

The model is pure: every operation is a function on immutable values.

- `Models`: the entities. These are difficulties and statuses, questions, evaluations, ledger records, the session state, the requests and the responses.
- `Adaptive`: the adaptive-difficulty controller.
- `Provider`: the provider helpers. These are the years-to-experience band and the defensive field-by-field reading of the provider's JSON answers. The provider itself is a function parameter from a prompt to a JSON object.
- `Storage`: the session store, two maps with idle expiry. The clock is an explicit `now` in microseconds.
- `Session`: the interview state machine on one session. It covers start, submit, the report and the current-question read, and the ledger invariant `Wf` that every transition keeps.
- `Service`: the service operations. Each reads a session through the store (which may expire or refresh it), applies the transition and writes the result back. The store-wide invariant `ServiceInvariant` is preserved by all of them; by start only for a request within the validator's bounds.
- `Upload`: the speech upload validation. It checks the extension, then the size, then emptiness.

## Model

| member | source | states |
|---|---|---|
| Models.OfRank | app/interview/services/openai_service.py:439-440 | the difficulty at a position of EASY < MEDIUM < HARD; it has that rank, and it is the only difficulty with it |
| Models.ParseDifficulty | app/interview/models.py:22-26 | the enum lookup by value: succeeds exactly for "easy", "medium", "hard", returns the member whose value it is, and inverts `DifficultyValue` |
| Models.NewRecord | app/interview/models.py:148-152 | a record made from a question alone is pending: answer and evaluation both default to none |
| Models.StartRequestWithDefaultCount | app/interview/models.py:55-60 | an omitted question count is 5 while the given experience, subject and difficulty are kept, and such a request is valid exactly when the subject length is within 2..100 |
| Adaptive.AdaptiveDifficulty | app/interview/services/openai_service.py:434-450 | no scores keep the difficulty; a mean of at least 8 moves up exactly one level unless already HARD; a mean of at most 4 moves down exactly one level unless already EASY; anything in between changes nothing; the result is never more than one level away |
| Adaptive.SumBounds | app/interview/services/openai_service.py:437 | scores each within lo..hi sum to between lo·n and hi·n |
| Adaptive.AdaptiveMonotoneInMean | app/interview/services/openai_service.py:434-450 | from the same start, a window with a lower or equal mean never yields a harder difficulty than another |
| Adaptive.ControllerExamples | app/interview/services/openai_service.py:443-450 | 9,9,9 at EASY gives MEDIUM (one step, not two); 2,2,2 at MEDIUM gives EASY; 6,6,6 leaves every level unchanged |
| Adaptive.MiddleMeanIsNoOp | app/interview/services/openai_service.py:443-450 | a mean strictly between 4 and 8 never changes the difficulty |
| Provider.ExperienceBandOf | app/interview/services/openai_service.py:98-107 | 0 years is fresher; negative or 1..2 is junior; 3..5 is mid-level; 6 or more is senior, each as an if-and-only-if |
| Provider.ExperienceBandMonotone | app/interview/services/openai_service.py:98-107 | for non-negative experience, more years never give a lower band |
| Provider.ReadText | app/interview/services/openai_service.py:313-315 | a missing text field takes its default, a present one is used only when it is a string, anything else is malformed |
| Provider.ReadList | app/interview/services/openai_service.py:362-363 | a missing list field is empty, a present one is used only when it is a list of strings |
| Provider.ReadScore | app/interview/services/openai_service.py:357 | a missing score is 5; a present one is accepted exactly when it is a whole number in 1..10, and then is that number |
| Provider.EvaluationFromResponse | app/interview/services/openai_service.py:356-365 | succeeds exactly when every field reads: a whole-number score in 1..10, strings for the four criteria and the feedback, lists of strings for strengths and areas; each field is then the provider's value when present and its default (5, "", empty) when absent; a failure names one of the evaluation's keys; an empty object yields the all-default evaluation |
| Provider.ScoreOnlyEvaluation | app/interview/services/openai_service.py:356-365 | an answer holding only a score gives that score, with every other field defaulted |
| Provider.EvaluationRoundTrip | app/interview/services/openai_service.py:356-365 | reading back the JSON object of any evaluation recovers that evaluation |
| Provider.QuestionFromResponse | app/interview/services/openai_service.py:311-316 | succeeds exactly when text and topic, where present, are strings and a present difficulty is a string naming a level; the question then has the requested number and the provider's text, difficulty and topic, with "", the requested difficulty and the subject for missing ones |
| Provider.QuestionRoundTrip | app/interview/services/openai_service.py:311-316 | reading back the JSON object of any question, under any subject and default difficulty, recovers that question |
| Provider.GenerateQuestion | app/interview/services/openai_service.py:311-316 | stated on the provider's answer to the prompt itself: succeeds exactly when its text and topic are strings and its difficulty names a level, each where present; the question carries the prompt's number and the answer's text, topic and difficulty, or "", the prompt's subject and the prompt's difficulty where the answer omits them |
| Provider.EvaluateAnswer | app/interview/services/openai_service.py:356-365 | stated on the provider's answer itself: succeeds exactly when a present score is a whole number in 1..10, present criteria and feedback are strings and present strengths and areas are lists of strings; the evaluation carries each field the provider sent and the default (5, "", empty) for each it omitted |
| Storage.NewStore | app/interview/storage.py:25-35 | an empty, consistent store whose timeout is the given minutes in microseconds |
| Storage.Create | app/interview/storage.py:37-50 | stores the session under its id stamped now, replacing any entry with that id, and keeps both store invariants |
| Storage.Get | app/interview/storage.py:52-78 | an absent id reads none and changes nothing; an id idle for strictly more than the timeout reads none and is removed from both maps; a live id is returned and restamped now |
| Storage.Update | app/interview/storage.py:80-93 | the session is stored and restamped; every other id keeps its session; an absent id is added; the timeout is unchanged |
| Storage.Delete | app/interview/storage.py:95-110 | true exactly when the id was present; the id is gone from both maps and nothing else changes; a miss leaves the store unchanged |
| Storage.Exists | app/interview/storage.py:112-123 | true exactly when the id is present and not expired, with the same side effect as a read |
| Storage.ExpiredIds | app/interview/storage.py:133-138 | exactly the ids idle for strictly longer than the timeout |
| Storage.CleanupExpired | app/interview/storage.py:125-144 | removes exactly the expired ids, leaves live entries untouched, returns how many sessions it removed, and leaves nothing expired |
| Storage.GetActiveCount | app/interview/storage.py:146-155 | the store afterwards is exactly the sweep's result, and the count is the number of sessions that survive it, the unexpired ones |
| Storage.CreateThenGet | app/interview/storage.py:68-78 | a stored session still reads back exactly at the timeout and is removed one tick later |
| Storage.GetRefreshes | app/interview/storage.py:76-78 | a successful read extends the lifetime: any read within the timeout after it succeeds with the same state |
| Storage.RefreshScenario | app/interview/storage.py:68-78 | touched at 0 and read at timeout−1, a session is still live at 2·timeout−2 |
| Storage.DeleteTwice | app/interview/storage.py:105-110 | a second delete of the same id reports false and changes nothing |
| Storage.CleanupIdempotent | app/interview/storage.py:132-144 | a second sweep at the same instant removes nothing |
| Storage.NothingExpiredNoOp | app/interview/storage.py:132-144 | a sweep with nothing expired changes nothing and counts zero |
| Storage.CleanupPreservesReads | app/interview/storage.py:132-144 | a sweep never changes what a read at the same instant returns |
| Session.EvaluatedScores | app/interview/services/interview_service.py:201-205 | the evaluated turns' scores, never more of them than turns, each within 1..10 |
| Session.EvaluatedScoresOfEvaluated | app/interview/services/interview_service.py:201-205 | when every turn is evaluated, the scores are the turns' scores position by position |
| Session.EvaluatedScoresConcat | app/interview/services/interview_service.py:201-205 | the scores of a ledger are those of its first part followed by those of its second part |
| Session.EvaluatedScoresAppend | app/interview/services/interview_service.py:201-205 | appending a turn appends its score exactly when that turn is evaluated, and keeps all earlier scores in order |
| Session.LastN | app/interview/services/interview_service.py:205 | the last n scores, or all of them when there are fewer, as a suffix |
| Session.NextDifficulty | app/interview/services/interview_service.py:200-210 | the controller applied to the last three evaluated scores: a mean of at least 8 among them moves the configured difficulty up one level (HARD stays), at most 4 moves it down one level (EASY stays), anything in between keeps it; no score keeps it; never more than one level away |
| Session.Start | app/interview/services/interview_service.py:90-134 | succeeds exactly when the first question is generated, and a failure carries the generation error; the first question is the provider's answer to the first-question prompt (configured difficulty, number 1, no history); the session has the request's config, is in progress at number 1 with one pending turn holding that question; a valid request yields a well-formed ledger |
| Session.Submit | app/interview/services/interview_service.py:157-189 | rejects a completed session, then a number other than the current one, before the provider is asked; for a valid submission a failed evaluation is a provider failure carrying its error, and a successful one continues as `Session.Advance` with that evaluation; a success means the submission was valid and the evaluation is the provider's for the last question and this answer |
| Session.Advance | app/interview/services/interview_service.py:187-243 | succeeds exactly when no next question is needed or its generation succeeds, and a generation failure is a provider failure carrying its error; the last turn gets the answer and evaluation and earlier turns are unchanged; at the last question the session completes with no new turn; otherwise one pending turn numbered current+1, the provider's answer to the prompt at the adapted difficulty over the updated history, is appended; the remaining count is total minus the new current number |
| Session.SubmitSucceedsExactly | app/interview/services/interview_service.py:157-243 | a valid submission succeeds exactly when the evaluation succeeds and, unless it answers the last question, the next question's generation succeeds; every failure of a valid submission is a provider failure |
| Session.AnswerLast | app/interview/services/interview_service.py:187-189 | only the last turn changes, and it gains the answer and the evaluation |
| Session.AnsweringKeepsWf | app/interview/services/interview_service.py:187-232 | recording the last answer, then completing at the configured count or appending one pending turn with the next number, keeps the ledger invariant |
| Session.SubmitPreservesWf | app/interview/services/interview_service.py:187-232 | every successful submission keeps the ledger invariant |
| Session.ResubmitRejected | app/interview/services/interview_service.py:165-174 | after number n succeeds, submitting n again fails as completed or as the wrong number |
| Session.AnsweringAllCompletes | app/interview/services/interview_service.py:191-232 | with a provider that always answers well-formed objects, answering the remaining questions in turn completes the session after exactly the configured count, every turn answered |
| Session.AnsweredRecords | app/interview/services/interview_service.py:279-282 | the answered-and-evaluated turns, each from the ledger |
| Session.AnsweredRecordsOfAnswered | app/interview/services/interview_service.py:279-282 | a fully answered ledger is kept whole and in order |
| Session.AnsweredRecordsConcat | app/interview/services/interview_service.py:279-282 | the answered turns of a ledger are those of its first part followed by those of its second part |
| Session.AnsweredRecordsAppend | app/interview/services/interview_service.py:279-282 | appending a turn appends it to the answered turns exactly when it is answered, keeping all earlier ones in order |
| Session.CompletedCoversAll | app/interview/services/interview_service.py:279-282 | a completed well-formed session's report covers all configured questions |
| Session.AnswerSummary | app/interview/services/interview_service.py:298 | answers up to 200 characters are kept whole; longer ones become their first 200 characters and "..." |
| Session.Breakdown | app/interview/services/interview_service.py:292-303 | one entry per answered turn, in order, with its number, question text, topic, difficulty, score, feedback and answer summary |
| Session.Mean | app/interview/services/interview_service.py:308 | zero for no scores, otherwise the value that times the count gives the sum |
| Session.MeanOfScoresBounded | app/interview/models.py:207-212 | the mean of scores within 1..10 is within 1..10, so the fallback meets the report's 0..10 bound |
| Session.MeanOfScoresValid | app/interview/models.py:207-212 | the mean of scores within 1..10, or of none, meets the report's 0..10 bound |
| Session.MeanExample | app/interview/services/interview_service.py:308 | scores 6, 8 and 10 average 8 |
| Session.FallbackOverallScore | app/interview/services/interview_service.py:305-308 | the sum of the answered turns' scores divided by their count, 0 when there is none, always within the report's bound |
| Session.FallbackExample | app/interview/services/interview_service.py:305-308 | three answered turns scored 6, 8 and 10 fall back to an overall score of 8 |
| Session.OverallScore | app/interview/services/interview_service.py:305-312 | the provider's score, exactly, when it is a number within 0..10; any other value present is a malformed-score error; the fallback mean when it is absent |
| Session.ReportFields | app/interview/services/interview_service.py:310-322 | succeeds exactly when the overall score, detailed feedback, strong and weak areas, recommendations and hire verdict all read; each is then the provider's value when present and its default ("", empty, "Unable to determine", the fallback mean) when absent |
| Session.Report | app/interview/services/interview_service.py:272-323 | an unfinished session is refused with its status; for a completed one the report succeeds exactly when the provider's fields read, a read failure is a provider failure carrying its error, and a report carries those fields, the session's id, experience and subject, the breakdown of the answered turns, their count and the configured total |
| Session.CurrentQuestion | app/interview/services/interview_service.py:366-375 | none once completed; for a well-formed session in progress, the pending turn's question, numbered as the current question |
| Service.EmptyStoreInvariant | app/interview/storage.py:170 | a fresh store satisfies the service invariant |
| Service.StartInterview | app/interview/services/interview_service.py:74-134 | succeeds exactly when the first question is generated; a failure stores nothing and carries the generation error; success stores the session `Session.Start` builds (the request's config, the provider's first question) under the given id stamped now, leaving other ids and the timeout alone; with a valid request the service invariant is kept |
| Service.SubmitAnswer | app/interview/services/interview_service.py:136-243 | a missing or expired session is not found; for a found session the transition's error is returned unchanged (completed, then wrong number, then provider failure) and the store is left as the read left it; on success the response is the transition's and only that session's entry changes, to the new state stamped now; every outcome keeps the timeout; the service invariant is kept |
| Service.SubmitAnswerTouchesOneId | app/interview/storage.py:80-93 | in a store keeping each session under its own id, a successful submission changes only the submitted id's session and stamp, and never the timeout |
| Service.SubmitKeepsInvariant | app/interview/services/interview_service.py:234-235 | writing back a successful transition of a stored session keeps the service invariant |
| Service.UpdateKeepsInvariant | app/interview/storage.py:90-93 | storing a well-formed session keeps the service invariant |
| Service.GetReport | app/interview/services/interview_service.py:264-276 | a missing or expired session is not found; for a live one the result is that session's report, so one in progress is refused; a report has a bounded score and, in a store keeping each session under its own id, carries the requested id |
| Service.GetInterviewState | app/interview/services/interview_service.py:341-348 | succeeds exactly for a present, unexpired id and returns the stored state |
| Service.GetCurrentQuestion | app/interview/services/interview_service.py:366-375 | fails exactly when the read finds nothing; otherwise the stored session's current question: none once completed, the current-numbered pending question while in progress |
| Service.WrongNumberChangesNothing | app/interview/services/interview_service.py:170-174 | a wrong question number changes no session; only the read's refresh of the stamp happens |
| Upload.SortedExtensionsAreSupported | app/speech/router.py:29 | the extensions the rejection message lists are exactly the supported set |
| Upload.SortedExtensionsAreSorted | app/speech/router.py:105 | the message lists them in strictly increasing order, as sorting them gives |
| Upload.LowerAt | app/speech/router.py:101 | each character of the lower-cased name is the lower-cased character |
| Upload.LowerIdempotent | app/speech/router.py:101 | lower-casing twice is lower-casing once |
| Upload.LowerKeepsDots | app/speech/router.py:101 | lower-casing neither removes nor creates a dot |
| Upload.AfterLastDotFound | app/speech/router.py:101 | there is text after a last dot exactly when the name contains a dot, and that text contains no dot |
| Upload.AfterLastDotSplit | app/speech/router.py:101 | for stem.tail with a dot-free tail, the text after the last dot is the tail |
| Upload.AfterLastDotIgnoresCase | app/speech/router.py:101 | lower-casing a name lower-cases the text after its last dot, found in the same place |
| Upload.ExtensionOfSplit | app/speech/router.py:101 | the extension of stem.tail, for a dot-free tail, is "." and the lower-cased tail |
| Upload.ExtensionShape | app/speech/router.py:101 | a name has an empty extension exactly when it has no dot; otherwise the extension is one dot followed by dot-free text |
| Upload.ExtensionIgnoresCase | app/speech/router.py:101 | lower-casing a name does not change its extension |
| Upload.ValidateUpload | app/speech/router.py:99-123 | accepted exactly when the checked extension is absent or supported and the size is 1..25 MiB; an unsupported extension is refused with 400 before any size check; 413 exactly for an oversized file with an acceptable name; the empty-file 400 exactly for size 0 with an acceptable name |
| Upload.ValidationIgnoresCase | app/speech/router.py:99-106 | the verdict does not depend on the case of the file name |
| Upload.NoDotSkipsExtensionCheck | app/speech/router.py:100-102 | a name without a dot gets the same verdict as no name: only the size decides |
| Upload.NoNameExamples | app/speech/router.py:100 | an absent or empty name skips the extension check |
| Upload.AcceptedAfterLastDot | app/speech/router.py:99-123 | a name whose lower-cased text after its last dot is supported is accepted at any size within 1..25 MiB, whatever its case |
| Upload.RefusedAfterLastDot | app/speech/router.py:99-106 | a name whose lower-cased text after its last dot is not supported is refused with 400 at any size, a trailing dot included |
| Upload.UpperCaseExample | app/speech/router.py:101-102 | "A.MP3" is accepted |
| Upload.TrailingDotExample | app/speech/router.py:101-106 | "x." has extension "." and is refused as unsupported, even when empty: the extension is checked first |
| Upload.SizeExamples | app/speech/router.py:111-123 | exactly 25 MiB passes; one byte more gives 413; zero bytes give the empty-file 400 |

## Left out

- Prompt texts, the chat-completion call and JSON parsing are not modelled. The provider is a parameter from a prompt value to the JSON object it answers with.
- Transcription itself, the speech router's MIME table and the HTTP routers, authentication, configuration and application start-up are not modelled.
- The store's asyncio lock is not modelled, because the model is sequential: each operation is atomic.
- `list_all` is not modelled, because it returns dictionary order, which the model's maps do not have.
- The clock and uuid4 are parameters. `Service` reads one `now` for a whole call, where the code reads the clock again on write-back. `Storage.Get` likewise uses one `now` both for the expiry test and for the restamp of a live session, where the code reads the clock separately for each.
- Submit: on a provider failure the model leaves the stored session exactly as the read left it. The code mutates the session object in place, so an evaluation that succeeds followed by a failing question generation leaves the stored object with the answer recorded but no new question.
- Provider.ReadScore: numeric strings, booleans and other values the lax validator would coerce to an integer are treated as malformed.
- Session.OverallScore: numeric strings such as "7.5", and booleans, which the report's lax float field would coerce, are treated as malformed.
- Adaptive.AdaptiveDifficulty: the float mean is replaced by exact integer comparisons of the sum against 8·n and 4·n. Floating-point rounding of the mean is not modelled.
- Session.FallbackOverallScore: the fallback mean is an exact `real`, not a float, so its rounding is not modelled.
- The request validator's bounds on a submission (a non-empty answer of at most 10000 characters, a positive question number) are not modelled. `Session.Submit` accepts any answer text and rejects any number other than the current one.
- Upload.Lower: lower-cases ASCII letters only, not all of Unicode.
- Upload.ValidateUpload: the upload's content is represented by its byte length only.
- Service.StartInterview: the request field is modelled as `experienceYears`, which is what the service reads. The request, config and report models declare an `experience_level` enum instead, so the code as written cannot run start, submit (which passes `config.experience_years` to the evaluation and the next question) or report; the model follows the service's use.
- Create and update both overwrite silently. Neither rejects an existing or missing id, and the model follows that code.
- The ledger raises no separate sequence or already-answered errors. Those cases surface only as the invalid-question-number and already-completed errors the service checks.

=== FILE: adaptive.dfy ===
/** The adaptive-difficulty controller: from a difficulty and a window of recent
    scores to the next difficulty, moving at most one step along
    EASY < MEDIUM < HARD. The service's float mean is replaced by exact
    integer comparisons of the sum against multiples of the window length. */
module Adaptive {
  import opened Models

  /** Sum of a sequence of scores. */
  function Sum(s: seq<int>): int
  {
    if |s| == 0 then 0 else s[0] + Sum(s[1..])
  }

  /** The mean of a non-empty window is at least 8. */
  predicate HighMean(s: seq<int>)
  {
    |s| > 0 && Sum(s) >= 8 * |s|
  }

  /** The mean of a non-empty window is at most 4. */
  predicate LowMean(s: seq<int>)
  {
    |s| > 0 && Sum(s) <= 4 * |s|
  }

  /** The next difficulty for the given current difficulty and recent scores. */
  function AdaptiveDifficulty(current: Difficulty, recentScores: seq<int>): (r: Difficulty)
    ensures |recentScores| == 0 ==> r == current
    ensures HighMean(recentScores) && current != Hard ==> Rank(r) == Rank(current) + 1
    ensures LowMean(recentScores) && current != Easy ==> Rank(r) == Rank(current) - 1
    ensures !HighMean(recentScores) && !LowMean(recentScores) ==> r == current
    ensures HighMean(recentScores) && current == Hard ==> r == Hard
    ensures LowMean(recentScores) && current == Easy ==> r == Easy
    ensures -1 <= Rank(r) - Rank(current) <= 1
  {
    if |recentScores| == 0 then current
    else
      var sum := Sum(recentScores);
      var n := |recentScores|;
      var i := Rank(current);
      if sum >= 8 * n && i < 2 then OfRank(i + 1)
      else if sum <= 4 * n && i > 0 then OfRank(i - 1)
      else current
  }

  /** Sum of a sequence whose elements all lie in lo..hi lies in lo*n..hi*n. */
  lemma {:induction false} SumBounds(s: seq<int>, lo: int, hi: int)
    requires forall i :: 0 <= i < |s| ==> lo <= s[i] <= hi
    ensures lo * |s| <= Sum(s) <= hi * |s|
  {
    if |s| > 0 {
      SumBounds(s[1..], lo, hi);
    }
  }

  /** The controller is monotone in the mean: a window whose mean is no higher
      than another's never yields a harder difficulty from the same start. */
  lemma AdaptiveMonotoneInMean(d: Difficulty, a: seq<int>, b: seq<int>)
    requires |a| > 0 && |b| > 0
    requires Sum(a) * |b| <= Sum(b) * |a|
    ensures Rank(AdaptiveDifficulty(d, a)) <= Rank(AdaptiveDifficulty(d, b))
  {
    MeanOrder(Sum(a), |a|, Sum(b), |b|);
    assert HighMean(a) ==> HighMean(b);
    assert LowMean(b) ==> LowMean(a);
  }

  /** If sa/na <= sb/nb then a mean of at least 8 carries from a to b, and a
      mean of at most 4 carries from b to a. */
  lemma MeanOrder(sa: int, na: int, sb: int, nb: int)
    requires na > 0 && nb > 0
    requires sa * nb <= sb * na
    ensures sa >= 8 * na ==> sb >= 8 * nb
    ensures sb <= 4 * nb ==> sa <= 4 * na
  {
    if sa >= 8 * na {
      ScaleLower(sa, 8 * na, nb);
      assert sb * na >= (8 * nb) * na;
      CancelLower(sb, 8 * nb, na);
    }
    if sb <= 4 * nb {
      ScaleUpper(sb, 4 * nb, na);
      assert sa * nb <= (4 * na) * nb;
      CancelUpper(sa, 4 * na, nb);
    }
  }

  lemma ScaleLower(x: int, y: int, m: nat)
    requires x >= y
    ensures x * m >= y * m
  {
  }

  lemma ScaleUpper(x: int, y: int, m: nat)
    requires x <= y
    ensures x * m <= y * m
  {
  }

  lemma CancelLower(x: int, y: int, m: int)
    requires m > 0 && x * m >= y * m
    ensures x >= y
  {
  }

  lemma CancelUpper(x: int, y: int, m: int)
    requires m > 0 && x * m <= y * m
    ensures x <= y
  {
  }

  /** Three scores of 9 at EASY promote exactly one step, to MEDIUM and not HARD;
      three scores of 2 at MEDIUM demote to EASY; 6, 6, 6 leaves every level alone. */
  lemma ControllerExamples()
    ensures AdaptiveDifficulty(Easy, [9, 9, 9]) == Medium
    ensures AdaptiveDifficulty(Medium, [2, 2, 2]) == Easy
    ensures forall d: Difficulty :: AdaptiveDifficulty(d, [6, 6, 6]) == d
  {
    assert Sum([9, 9, 9]) == 27;
    assert Sum([2, 2, 2]) == 6;
    assert Sum([6, 6, 6]) == 18;
  }

  /** A window with mean strictly between 4 and 8 is a no-op at every level. */
  lemma MiddleMeanIsNoOp(d: Difficulty, s: seq<int>)
    requires |s| > 0 && 4 * |s| < Sum(s) < 8 * |s|
    ensures AdaptiveDifficulty(d, s) == d
  {
  }
}

=== FILE: models.dfy ===
/** Data shapes of the interview engine: the enums, the question, evaluation and
    record shapes, the session state, the request and response shapes, and the
    field bounds the request and response validators enforce. */
module Models {

  datatype Option<+T> = None | Some(value: T)

  /** The outcome of an operation that can fail with an error of type E. */
  datatype Result<+T, +E> = Success(value: T) | Failure(error: E) {

    predicate IsFailure() {
      Failure?
    }

    function PropagateFailure<U>(): Result<U, E>
      requires Failure?
    {
      Failure(error)
    }

    function Extract(): T
      requires Success?
    {
      value
    }
  }

  // ---------------------------------------------------------------------------
  // Enums
  // ---------------------------------------------------------------------------

  /** Question difficulty. The adaptive controller walks the order
      EASY < MEDIUM < HARD. */
  datatype Difficulty = Easy | Medium | Hard

  /** Position of a difficulty in the order [EASY, MEDIUM, HARD]. */
  function Rank(d: Difficulty): nat
  {
    match d
    case Easy => 0
    case Medium => 1
    case Hard => 2
  }

  /** The difficulty at position i of [EASY, MEDIUM, HARD]; the inverse of Rank. */
  function OfRank(i: nat): (d: Difficulty)
    requires i < 3
    ensures Rank(d) == i
    ensures forall e: Difficulty :: Rank(e) == i ==> e == d
  {
    if i == 0 then Easy else if i == 1 then Medium else Hard
  }

  /** The wire value of a difficulty (the enum member's string value). */
  function DifficultyValue(d: Difficulty): string
  {
    match d
    case Easy => "easy"
    case Medium => "medium"
    case Hard => "hard"
  }

  /** `Difficulty(v)`: the member whose value is v; None where Python raises ValueError. */
  function ParseDifficulty(v: string): (r: Option<Difficulty>)
    ensures r.Some? <==> (v == "easy" || v == "medium" || v == "hard")
    ensures r.Some? ==> DifficultyValue(r.value) == v
    ensures forall d: Difficulty :: v == DifficultyValue(d) ==> r == Some(d)
  {
    if v == "easy" then Some(Easy)
    else if v == "medium" then Some(Medium)
    else if v == "hard" then Some(Hard)
    else None
  }

  /** Session status; IN_PROGRESS until the last answer is recorded. */
  datatype InterviewStatus = InProgress | Completed

  // ---------------------------------------------------------------------------
  // Questions, evaluations and records
  // ---------------------------------------------------------------------------

  /** An evaluation score; the evaluation validator admits 1..10 only. */
  type Score = s: int | 1 <= s <= 10 witness 5

  datatype QuestionEvaluation = QuestionEvaluation(
    score: Score,
    correctness: string,
    depth: string,
    clarity: string,
    practicalUnderstanding: string,
    strengths: seq<string>,
    areasForImprovement: seq<string>,
    feedback: string)

  datatype InterviewQuestion = InterviewQuestion(
    questionNumber: int,
    question: string,
    difficulty: Difficulty,
    topic: string)

  /** One turn of the ledger: a question, and the answer and evaluation once given. */
  datatype QuestionAnswerRecord = QuestionAnswerRecord(
    question: InterviewQuestion,
    answer: Option<string>,
    evaluation: Option<QuestionEvaluation>)

  /** A turn whose answer and evaluation are both recorded. */
  predicate Answered(r: QuestionAnswerRecord)
  {
    r.answer.Some? && r.evaluation.Some?
  }

  /** A turn still waiting for its answer: neither answer nor evaluation is set. */
  predicate Pending(r: QuestionAnswerRecord)
  {
    r.answer.None? && r.evaluation.None?
  }

  /** A record built from a question alone: answer and evaluation take their default None. */
  function NewRecord(q: InterviewQuestion): (r: QuestionAnswerRecord)
    ensures Pending(r) && !Answered(r)
    ensures r.question == q
  {
    QuestionAnswerRecord(q, None, None)
  }

  // ---------------------------------------------------------------------------
  // Session state
  // ---------------------------------------------------------------------------

  /** Session identifiers; fresh ones are supplied by the caller. */
  type Uuid = nat

  datatype InterviewConfig = InterviewConfig(
    experienceYears: int,
    subject: string,
    difficulty: Difficulty,
    numQuestions: int)

  datatype InterviewState = InterviewState(
    interviewId: Uuid,
    config: InterviewConfig,
    currentQuestionNum: int,
    history: seq<QuestionAnswerRecord>,
    status: InterviewStatus)

  // ---------------------------------------------------------------------------
  // Requests and their field bounds
  // ---------------------------------------------------------------------------

  const DefaultNumQuestions: int := 5
  const MinNumQuestions: int := 1
  const MaxNumQuestions: int := 20
  const MinSubjectLength: int := 2
  const MaxSubjectLength: int := 100

  datatype StartInterviewRequest = StartInterviewRequest(
    experienceYears: int,
    subject: string,
    difficulty: Difficulty,
    numQuestions: int)

  /** The bounds the start-request validator enforces. */
  predicate ValidStartRequest(r: StartInterviewRequest)
  {
    && MinSubjectLength <= |r.subject| <= MaxSubjectLength
    && MinNumQuestions <= r.numQuestions <= MaxNumQuestions
  }

  /** A start request with the question count left out takes the default. */
  function StartRequestWithDefaultCount(experienceYears: int, subject: string, difficulty: Difficulty): (r: StartInterviewRequest)
    ensures MinSubjectLength <= |subject| <= MaxSubjectLength <==> ValidStartRequest(r)
    ensures r.numQuestions == DefaultNumQuestions
    ensures r.experienceYears == experienceYears && r.subject == subject && r.difficulty == difficulty
  {
    StartInterviewRequest(experienceYears, subject, difficulty, DefaultNumQuestions)
  }

  datatype SubmitAnswerRequest = SubmitAnswerRequest(
    interviewId: Uuid,
    answer: string,
    questionNumber: int)

  // ---------------------------------------------------------------------------
  // Responses
  // ---------------------------------------------------------------------------

  datatype StartInterviewResponse = StartInterviewResponse(
    interviewId: Uuid,
    firstQuestion: InterviewQuestion,
    totalQuestions: int,
    config: InterviewConfig)

  datatype SubmitAnswerResponse = SubmitAnswerResponse(
    evaluation: QuestionEvaluation,
    nextQuestion: Option<InterviewQuestion>,
    isComplete: bool,
    questionsRemaining: int,
    currentQuestionNum: int)

  datatype QuestionBreakdown = QuestionBreakdown(
    questionNumber: int,
    question: string,
    topic: string,
    difficulty: Difficulty,
    answerSummary: string,
    score: int,
    feedback: string)

  datatype FinalReportResponse = FinalReportResponse(
    interviewId: Uuid,
    overallScore: real,
    totalQuestions: int,
    questionsAnswered: int,
    experienceYears: int,
    subject: string,
    detailedFeedback: string,
    strongAreas: seq<string>,
    weakAreas: seq<string>,
    questionWiseBreakdown: seq<QuestionBreakdown>,
    recommendations: seq<string>,
    hireRecommendation: string)

  /** The bound the report validator puts on the overall score. */
  predicate ValidOverallScore(x: real)
  {
    0.0 <= x <= 10.0
  }
}

=== FILE: provider.dfy ===
/** The pure part of the provider service: the years-to-experience band used in
    every prompt, and the defensive defaulting that turns a provider's JSON
    object into a question or an evaluation. The provider itself is a function
    parameter from a prompt to the JSON object it answers with. */
module Provider {
  import opened Models

  // ---------------------------------------------------------------------------
  // Experience bands
  // ---------------------------------------------------------------------------

  datatype ExperienceBand = Fresher | Junior | MidLevel | Senior

  /** Seniority order of the bands. */
  function BandRank(b: ExperienceBand): nat
  {
    match b
    case Fresher => 0
    case Junior => 1
    case MidLevel => 2
    case Senior => 3
  }

  /** The band the prompts describe a candidate with the given years of experience as.
      Zero years is a fresher; everything else up to two years, negative counts
      included, is junior; three to five is mid-level; six and up is senior. */
  function ExperienceBandOf(years: int): (b: ExperienceBand)
    ensures b == Fresher <==> years == 0
    ensures b == Junior <==> (years < 0 || 1 <= years <= 2)
    ensures b == MidLevel <==> 3 <= years <= 5
    ensures b == Senior <==> years >= 6
  {
    if years == 0 then Fresher
    else if years <= 2 then Junior
    else if years <= 5 then MidLevel
    else Senior
  }

  /** For non-negative experience the band never goes down as years go up. */
  lemma ExperienceBandMonotone(a: int, b: int)
    requires 0 <= a <= b
    ensures BandRank(ExperienceBandOf(a)) <= BandRank(ExperienceBandOf(b))
  {
  }

  // ---------------------------------------------------------------------------
  // JSON responses
  // ---------------------------------------------------------------------------

  /** The JSON values a provider response field can hold, as far as the model
      distinguishes them: numbers, strings, lists of strings, and anything else. */
  datatype Json = JNum(n: real) | JStr(s: string) | JStrList(items: seq<string>) | JOther

  /** A provider response: a JSON object, read field by field. */
  type Response = map<string, Json>

  /** Why a provider response could not be turned into a model value. */
  datatype ProviderError = Malformed(field: string)

  /** `response.get(key, default)`. */
  function GetOr(resp: Response, key: string, default: Json): (v: Json)
    ensures key in resp ==> v == resp[key]
    ensures key !in resp ==> v == default
  {
    if key in resp then resp[key] else default
  }

  /** A text field, defaulting to `default` when absent; a non-string value is malformed. */
  function ReadText(resp: Response, key: string, default: string): (r: Result<string, ProviderError>)
    ensures key !in resp ==> r == Success(default)
    ensures key in resp ==> (r.Success? <==> resp[key].JStr?)
    ensures r.Success? && key in resp ==> r.value == resp[key].s
    ensures r.Failure? ==> r.error == Malformed(key)
  {
    match GetOr(resp, key, JStr(default))
    case JStr(s) => Success(s)
    case _ => Failure(Malformed(key))
  }

  /** A list-of-strings field, defaulting to the empty list when absent. */
  function ReadList(resp: Response, key: string): (r: Result<seq<string>, ProviderError>)
    ensures key !in resp ==> r == Success([])
    ensures key in resp ==> (r.Success? <==> resp[key].JStrList?)
    ensures r.Success? && key in resp ==> r.value == resp[key].items
    ensures r.Failure? ==> r.error == Malformed(key)
  {
    match GetOr(resp, key, JStrList([]))
    case JStrList(items) => Success(items)
    case _ => Failure(Malformed(key))
  }

  /** A number with no fractional part: what the integer validator accepts from a JSON number. */
  predicate IsIntegral(x: real)
  {
    x.Floor as real == x
  }

  /** The score field: defaults to 5 when absent; must be a whole number in 1..10. */
  function ReadScore(resp: Response): (r: Result<Score, ProviderError>)
    ensures "score" !in resp ==> r == Success(5)
    ensures "score" in resp ==>
      (r.Success? <==> resp["score"].JNum? && IsIntegral(resp["score"].n) && 1.0 <= resp["score"].n <= 10.0)
    ensures r.Success? ==> "score" in resp ==> r.value as real == resp["score"].n
    ensures r.Failure? ==> r.error == Malformed("score")
  {
    match GetOr(resp, "score", JNum(5.0))
    case JNum(x) =>
      if IsIntegral(x) && 1 <= x.Floor <= 10 then Success(x.Floor) else Failure(Malformed("score"))
    case _ => Failure(Malformed("score"))
  }

  // ---------------------------------------------------------------------------
  // Evaluations
  // ---------------------------------------------------------------------------

  /** The evaluation a response with every field missing yields. */
  const DefaultEvaluation: QuestionEvaluation := QuestionEvaluation(5, "", "", "", "", [], [], "")

  /** The evaluation built from the provider's JSON answer, field by field with
      defaults: it succeeds exactly when every field reads, and then each field is
      the one read (the provider's value when present, the default when absent). */
  function EvaluationFromResponse(resp: Response): (r: Result<QuestionEvaluation, ProviderError>)
    ensures r.Success? <==>
      && ReadScore(resp).Success?
      && ReadText(resp, "correctness", "").Success?
      && ReadText(resp, "depth", "").Success?
      && ReadText(resp, "clarity", "").Success?
      && ReadText(resp, "practical_understanding", "").Success?
      && ReadList(resp, "strengths").Success?
      && ReadList(resp, "areas_for_improvement").Success?
      && ReadText(resp, "feedback", "").Success?
    ensures r.Success? ==>
      && r.value.score == ReadScore(resp).value
      && r.value.correctness == ReadText(resp, "correctness", "").value
      && r.value.depth == ReadText(resp, "depth", "").value
      && r.value.clarity == ReadText(resp, "clarity", "").value
      && r.value.practicalUnderstanding == ReadText(resp, "practical_understanding", "").value
      && r.value.strengths == ReadList(resp, "strengths").value
      && r.value.areasForImprovement == ReadList(resp, "areas_for_improvement").value
      && r.value.feedback == ReadText(resp, "feedback", "").value
    ensures r.Failure? ==> r.error.field in EvaluationFields
    ensures resp == map[] ==> r == Success(DefaultEvaluation)
  {
    var score :- ReadScore(resp);
    var correctness :- ReadText(resp, "correctness", "");
    var depth :- ReadText(resp, "depth", "");
    var clarity :- ReadText(resp, "clarity", "");
    var practical :- ReadText(resp, "practical_understanding", "");
    var strengths :- ReadList(resp, "strengths");
    var areas :- ReadList(resp, "areas_for_improvement");
    var feedback :- ReadText(resp, "feedback", "");
    Success(QuestionEvaluation(score, correctness, depth, clarity, practical, strengths, areas, feedback))
  }

  /** The keys an evaluation is read from. */
  const EvaluationFields: set<string> := {
    "score", "correctness", "depth", "clarity", "practical_understanding",
    "strengths", "areas_for_improvement", "feedback"}

  /** A provider that sends only a score gets that score, with every other field
      defaulted. */
  lemma ScoreOnlyEvaluation(x: Score)
    ensures EvaluationFromResponse(map["score" := JNum(x as real)]) == Success(DefaultEvaluation.(score := x))
  {
    assert (x as real).Floor == x;
  }

  /** The JSON object a provider would send for a given evaluation. */
  function EvaluationToResponse(e: QuestionEvaluation): Response
  {
    map[
      "score" := JNum(e.score as real),
      "correctness" := JStr(e.correctness),
      "depth" := JStr(e.depth),
      "clarity" := JStr(e.clarity),
      "practical_understanding" := JStr(e.practicalUnderstanding),
      "strengths" := JStrList(e.strengths),
      "areas_for_improvement" := JStrList(e.areasForImprovement),
      "feedback" := JStr(e.feedback)
    ]
  }

  /** Reading back a fully populated response recovers the evaluation exactly. */
  lemma EvaluationRoundTrip(e: QuestionEvaluation)
    ensures EvaluationFromResponse(EvaluationToResponse(e)) == Success(e)
  {
    var resp := EvaluationToResponse(e);
    assert (e.score as real).Floor == e.score;
    assert ReadScore(resp) == Success(e.score);
  }

  // ---------------------------------------------------------------------------
  // Questions
  // ---------------------------------------------------------------------------

  /** The question built from the provider's JSON answer: the number is always the
      requested one, a missing text is empty, a missing difficulty is the requested
      one, a missing topic is the subject, and an unknown difficulty is malformed.
      It succeeds exactly when every field reads, and then carries the values read. */
  function QuestionFromResponse(resp: Response, subject: string, difficulty: Difficulty, questionNumber: int)
    : (r: Result<InterviewQuestion, ProviderError>)
    ensures r.Success? <==>
      && ReadText(resp, "question", "").Success?
      && ReadText(resp, "difficulty", DifficultyValue(difficulty)).Success?
      && ParseDifficulty(ReadText(resp, "difficulty", DifficultyValue(difficulty)).value).Some?
      && ReadText(resp, "topic", subject).Success?
    ensures r.Success? ==>
      && r.value.questionNumber == questionNumber
      && r.value.question == ReadText(resp, "question", "").value
      && Some(r.value.difficulty) == ParseDifficulty(ReadText(resp, "difficulty", DifficultyValue(difficulty)).value)
      && r.value.topic == ReadText(resp, "topic", subject).value
    ensures r.Success? ==> "difficulty" !in resp ==> r.value.difficulty == difficulty
    ensures "difficulty" in resp && (!resp["difficulty"].JStr? || ParseDifficulty(resp["difficulty"].s).None?)
      ==> r.Failure?
    ensures resp == map[] ==> r == Success(InterviewQuestion(questionNumber, "", difficulty, subject))
  {
    var text :- ReadText(resp, "question", "");
    var value :- ReadText(resp, "difficulty", DifficultyValue(difficulty));
    var d :- match ParseDifficulty(value)
             case Some(d) => Success(d)
             case None => Failure(Malformed("difficulty"));
    var topic :- ReadText(resp, "topic", subject);
    Success(InterviewQuestion(questionNumber, text, d, topic))
  }

  /** The JSON object a provider would send for a given question. */
  function QuestionToResponse(q: InterviewQuestion): Response
  {
    map[
      "question" := JStr(q.question),
      "topic" := JStr(q.topic),
      "difficulty" := JStr(DifficultyValue(q.difficulty))
    ]
  }

  /** Reading back a fully populated response recovers the question, whatever
      subject and default difficulty the request carried. */
  lemma QuestionRoundTrip(q: InterviewQuestion, subject: string, difficulty: Difficulty)
    ensures QuestionFromResponse(QuestionToResponse(q), subject, difficulty, q.questionNumber) == Success(q)
  {
    assert ParseDifficulty(DifficultyValue(q.difficulty)) == Some(q.difficulty);
  }

  // ---------------------------------------------------------------------------
  // Provider calls
  // ---------------------------------------------------------------------------

  /** What question generation is told: the candidate context, the target
      difficulty and position, and the turns so far. */
  datatype QuestionPrompt = QuestionPrompt(
    experienceYears: int,
    subject: string,
    difficulty: Difficulty,
    questionNumber: int,
    totalQuestions: int,
    previous: seq<QuestionAnswerRecord>)

  /** What answer evaluation is told. */
  datatype EvaluationPrompt = EvaluationPrompt(
    question: InterviewQuestion,
    answer: string,
    experienceYears: int,
    subject: string)

  /** What report generation is told. */
  datatype ReportPrompt = ReportPrompt(
    experienceYears: int,
    subject: string,
    records: seq<QuestionAnswerRecord>)

  /** A question generated for a prompt by the given provider: the prompt's number,
      and the provider's text, topic and difficulty where it sends them (the
      prompt's subject and difficulty where it does not). */
  function GenerateQuestion(generate: QuestionPrompt -> Response, p: QuestionPrompt)
    : (r: Result<InterviewQuestion, ProviderError>)
    ensures var resp := generate(p);
      r.Success? <==>
        && ("question" in resp ==> resp["question"].JStr?)
        && ("topic" in resp ==> resp["topic"].JStr?)
        && ("difficulty" in resp ==> resp["difficulty"].JStr? && ParseDifficulty(resp["difficulty"].s).Some?)
    ensures r.Success? ==> r.value.questionNumber == p.questionNumber
    ensures r.Success? ==> r.value.question == if "question" in generate(p) then generate(p)["question"].s else ""
    ensures r.Success? ==> r.value.topic == if "topic" in generate(p) then generate(p)["topic"].s else p.subject
    ensures r.Success? ==>
      if "difficulty" in generate(p) then ParseDifficulty(generate(p)["difficulty"].s) == Some(r.value.difficulty)
      else r.value.difficulty == p.difficulty
  {
    QuestionFromResponse(generate(p), p.subject, p.difficulty, p.questionNumber)
  }

  /** An answer evaluated by the given provider: the provider's score and texts
      where it sends them, the defaults where it does not. */
  function EvaluateAnswer(evaluate: EvaluationPrompt -> Response, p: EvaluationPrompt)
    : (r: Result<QuestionEvaluation, ProviderError>)
    ensures var resp := evaluate(p);
      r.Success? <==>
        && ("score" in resp ==> resp["score"].JNum? && IsIntegral(resp["score"].n) && 1.0 <= resp["score"].n <= 10.0)
        && (forall k | k in TextFields && k in resp :: resp[k].JStr?)
        && (forall k | k in ListFields && k in resp :: resp[k].JStrList?)
    ensures r.Success? ==> r.value.score as real == if "score" in evaluate(p) then evaluate(p)["score"].n else 5.0
    ensures r.Success? ==> r.value.correctness == TextOr(evaluate(p), "correctness")
    ensures r.Success? ==> r.value.depth == TextOr(evaluate(p), "depth")
    ensures r.Success? ==> r.value.clarity == TextOr(evaluate(p), "clarity")
    ensures r.Success? ==> r.value.practicalUnderstanding == TextOr(evaluate(p), "practical_understanding")
    ensures r.Success? ==> r.value.feedback == TextOr(evaluate(p), "feedback")
    ensures r.Success? ==> r.value.strengths == ListOr(evaluate(p), "strengths")
    ensures r.Success? ==> r.value.areasForImprovement == ListOr(evaluate(p), "areas_for_improvement")
    ensures evaluate(p) == map[] ==> r == Success(DefaultEvaluation)
  {
    EvaluationFromResponse(evaluate(p))
  }

  /** The evaluation's text and list keys. */
  const TextFields: set<string> := {"correctness", "depth", "clarity", "practical_understanding", "feedback"}
  const ListFields: set<string> := {"strengths", "areas_for_improvement"}

  /** The string under key, or "" when the key is absent or holds no string. */
  function TextOr(resp: Response, key: string): string
  {
    if key in resp && resp[key].JStr? then resp[key].s else ""
  }

  /** The list under key, or [] when the key is absent or holds no list. */
  function ListOr(resp: Response, key: string): seq<string>
  {
    if key in resp && resp[key].JStrList? then resp[key].items else []
  }
}

=== FILE: service.dfy ===
/** The interview service as callers see it: every operation reads the session
    from the store (which may expire it or refresh its timestamp), applies the
    session transition, and writes the result back. The clock reading `now` and
    the fresh id for a new session are parameters. */
module Service {
  import opened Models
  import opened Provider
  import opened Storage
  import opened Session

  /** What every store the service builds satisfies: consistent maps, every
      session under its own id, every session's ledger well formed. */
  predicate ServiceInvariant(st: Store)
  {
    && Consistent(st)
    && Keyed(st)
    && forall id :: id in st.sessions ==> Wf(st.sessions[id])
  }

  lemma EmptyStoreInvariant(timeoutMinutes: int)
    ensures ServiceInvariant(NewStore(timeoutMinutes))
  {
  }

  /** Starts an interview under the caller-supplied id and stores it stamped `now`;
      a provider failure stores nothing. */
  function StartInterview(
    st: Store, now: int, id: Uuid, req: StartInterviewRequest, generate: QuestionPrompt -> Response)
    : (r: (Store, Result<StartInterviewResponse, ServiceError>))
    ensures r.1.Success? <==> GenerateQuestion(generate, FirstQuestionPrompt(req)).Success?
    ensures r.1.Failure? ==>
      r.0 == st && r.1.error == ProviderFailure(GenerateQuestion(generate, FirstQuestionPrompt(req)).error)
    ensures r.1.Success? ==>
      && r.1.value.interviewId == id
      && id in r.0.sessions && r.0.stamps == st.stamps[id := now]
      && r.0.sessions[id].status == InProgress
      && r.0.sessions[id].currentQuestionNum == 1
      && r.0.sessions[id].history == [NewRecord(r.1.value.firstQuestion)]
      && r.0.sessions == st.sessions[id := r.0.sessions[id]]
      && r.0.sessions[id].config == ConfigOf(req)
      && r.1.value.firstQuestion == GenerateQuestion(generate, FirstQuestionPrompt(req)).value
      && (r.0.sessions[id], r.1.value) == Session.Start(id, req, generate).value
    ensures r.0.timeout == st.timeout
    ensures ValidStartRequest(req) && ServiceInvariant(st) ==> ServiceInvariant(r.0)
  {
    match Session.Start(id, req, generate)
    case Failure(e) => (st, Failure(e))
    case Success(started) =>
      var (st', _) := Create(st, started.0, now);
      (st', Success(started.1))
  }

  /** Submits an answer. A missing or expired session is NotFound; every failure
      leaves the store as the read left it (only the read's expiry or refresh); a
      success stores the session the transition produced, stamped `now`. */
  function SubmitAnswer(
    st: Store, now: int, req: SubmitAnswerRequest,
    evaluate: EvaluationPrompt -> Response, generate: QuestionPrompt -> Response)
    : (r: (Store, Result<SubmitAnswerResponse, ServiceError>))
    ensures Get(st, req.interviewId, now).1.None? ==> r == (Get(st, req.interviewId, now).0, Failure(NotFound(req.interviewId)))
    ensures r.1.Failure? ==> r.0 == Get(st, req.interviewId, now).0
    ensures Get(st, req.interviewId, now).1.Some? ==>
      var s := st.sessions[req.interviewId];
      var step := Session.Submit(s, req.questionNumber, req.answer, evaluate, generate);
      && (step.Failure? ==> r.1 == Failure(step.error))
      && (step.Success? ==>
            && r.1 == Success(step.value.1)
            && r.0.sessions == st.sessions[s.interviewId := step.value.0]
            && r.0.stamps == st.stamps[req.interviewId := now][s.interviewId := now])
    ensures r.1.Success? ==> Get(st, req.interviewId, now).1.Some?
    ensures r.0.timeout == st.timeout
    ensures ServiceInvariant(st) ==> ServiceInvariant(r.0)
  {
    var (st1, found) := Get(st, req.interviewId, now);
    match found
    case None => (st1, Failure(NotFound(req.interviewId)))
    case Some(s) =>
      match Session.Submit(s, req.questionNumber, req.answer, evaluate, generate)
      case Failure(e) => (st1, Failure(e))
      case Success(step) =>
        SubmitKeepsInvariant(st1, s, req, evaluate, generate, now);
        var (st2, _) := Update(st1, step.0, now);
        (st2, Success(step.1))
  }

  /** In a store that keeps every session under its own id, a successful submission
      changes only the submitted session and its timestamp; every other session
      and stamp is as it was. */
  lemma SubmitAnswerTouchesOneId(
    st: Store, now: int, req: SubmitAnswerRequest,
    evaluate: EvaluationPrompt -> Response, generate: QuestionPrompt -> Response)
    requires Keyed(st)
    ensures var r := SubmitAnswer(st, now, req, evaluate, generate);
      r.1.Success? ==>
        && req.interviewId in r.0.sessions
        && r.0.sessions == st.sessions[req.interviewId := r.0.sessions[req.interviewId]]
        && r.0.stamps == st.stamps[req.interviewId := now]
        && r.0.timeout == st.timeout
  {
    var r := SubmitAnswer(st, now, req, evaluate, generate);
    if r.1.Success? {
      assert st.sessions[req.interviewId].interviewId == req.interviewId;
    }
  }

  /** Writing back the successful transition of a stored session keeps the invariant. */
  lemma SubmitKeepsInvariant(
    st: Store, s: InterviewState, req: SubmitAnswerRequest,
    evaluate: EvaluationPrompt -> Response, generate: QuestionPrompt -> Response, now: int)
    requires Session.Submit(s, req.questionNumber, req.answer, evaluate, generate).Success?
    ensures ServiceInvariant(st) && s.interviewId in st.sessions && st.sessions[s.interviewId] == s ==>
      ServiceInvariant(Update(st, Session.Submit(s, req.questionNumber, req.answer, evaluate, generate).value.0, now).0)
  {
    if ServiceInvariant(st) && s.interviewId in st.sessions && st.sessions[s.interviewId] == s {
      SubmitPreservesWf(s, req.questionNumber, req.answer, evaluate, generate);
      UpdateKeepsInvariant(st, Session.Submit(s, req.questionNumber, req.answer, evaluate, generate).value.0, now);
    }
  }

  /** Storing a well-formed session keeps the service invariant. */
  lemma UpdateKeepsInvariant(st: Store, s: InterviewState, now: int)
    requires ServiceInvariant(st) && Wf(s)
    ensures ServiceInvariant(Update(st, s, now).0)
  {
    var st' := Update(st, s, now).0;
    forall id | id in st'.sessions
      ensures Wf(st'.sessions[id])
    {
      if id != s.interviewId {
        assert id in st.sessions;
      }
    }
  }

  /** The report of a stored session; NotFound when it is missing or expired. */
  function GetReport(st: Store, now: int, id: Uuid, report: ReportPrompt -> Response)
    : (r: (Store, Result<FinalReportResponse, ServiceError>))
    ensures r.0 == Get(st, id, now).0
    ensures Get(st, id, now).1.None? ==> r.1 == Failure(NotFound(id))
    ensures id in st.sessions && !Expired(st, id, now) ==> r.1 == Session.Report(st.sessions[id], report)
    ensures Keyed(st) && r.1.Success? ==> r.1.value.interviewId == id
    ensures Get(st, id, now).1.Some? && Get(st, id, now).1.value.status == InProgress ==>
      r.1 == Failure(NotCompleted(InProgress))
    ensures r.1.Success? ==> ValidOverallScore(r.1.value.overallScore)
    ensures ServiceInvariant(st) ==> ServiceInvariant(r.0)
  {
    var (st1, found) := Get(st, id, now);
    match found
    case None => (st1, Failure(NotFound(id)))
    case Some(s) => (st1, Session.Report(s, report))
  }

  /** The stored state of a session; NotFound when it is missing or expired. */
  function GetInterviewState(st: Store, now: int, id: Uuid): (r: (Store, Result<InterviewState, ServiceError>))
    ensures r.0 == Get(st, id, now).0
    ensures r.1.Success? <==> id in st.sessions && !Expired(st, id, now)
    ensures r.1.Success? ==> r.1.value == st.sessions[id]
    ensures r.1.Failure? ==> r.1.error == NotFound(id)
  {
    var (st1, found) := Get(st, id, now);
    match found
    case None => (st1, Failure(NotFound(id)))
    case Some(s) => (st1, Success(s))
  }

  /** The question awaiting an answer; none once the session is completed. */
  function GetCurrentQuestion(st: Store, now: int, id: Uuid): (r: (Store, Result<Option<InterviewQuestion>, ServiceError>))
    ensures r.0 == Get(st, id, now).0
    ensures r.1.Failure? <==> Get(st, id, now).1.None?
    ensures r.1.Success? ==> r.1.value == CurrentQuestion(st.sessions[id])
    ensures r.1.Success? && st.sessions[id].status == Completed ==> r.1.value == None
    ensures r.1.Success? && ServiceInvariant(st) && st.sessions[id].status == InProgress ==>
      r.1.value.Some? && r.1.value.value.questionNumber == st.sessions[id].currentQuestionNum
  {
    var (st1, found) := GetInterviewState(st, now, id);
    match found
    case Failure(e) => (st1, Failure(e))
    case Success(s) => (st1, Success(CurrentQuestion(s)))
  }

  /** Submitting with a number other than the current one never changes a session:
      the store differs from the original only in the read's timestamp refresh. */
  lemma WrongNumberChangesNothing(
    st: Store, now: int, req: SubmitAnswerRequest,
    evaluate: EvaluationPrompt -> Response, generate: QuestionPrompt -> Response)
    requires req.interviewId in st.sessions && !Expired(st, req.interviewId, now)
    requires st.sessions[req.interviewId].status == InProgress
    requires req.questionNumber != st.sessions[req.interviewId].currentQuestionNum
    ensures var r := SubmitAnswer(st, now, req, evaluate, generate);
            && r.1 == Failure(InvalidQuestionNumber(st.sessions[req.interviewId].currentQuestionNum, req.questionNumber))
            && r.0.sessions == st.sessions
            && r.0.stamps == st.stamps[req.interviewId := now]
  {
  }
}

=== FILE: session.dfy ===
/** The interview state machine as pure transitions on a session state: start,
    answer submission with its validation order, the adaptive choice of the next
    question's difficulty, the final report and the current-question read. The
    provider's three capabilities are function parameters. */
module Session {
  import opened Models
  import opened Adaptive
  import opened Provider

  /** The service's error kinds. NotCompleted is the base service error the
      report raises for an unfinished session; NoCurrentRecord is the index error
      reading the last record of an empty history would raise. */
  datatype ServiceError =
    | NotFound(id: Uuid)
    | AlreadyCompleted
    | InvalidQuestionNumber(expected: int, got: int)
    | NotCompleted(status: InterviewStatus)
    | ProviderFailure(cause: ProviderError)
    | NoCurrentRecord

  /** How many of the most recent scores steer the next difficulty. */
  const RecentWindow: nat := 3

  /** How many characters of an answer the report's breakdown keeps. */
  const SummaryLength: nat := 200

  /** What the report falls back to when the provider gives no hiring recommendation. */
  const UndeterminedHire: string := "Unable to determine"

  // ---------------------------------------------------------------------------
  // The ledger invariant
  // ---------------------------------------------------------------------------

  /** The ledger invariant: the history holds exactly `currentQuestionNum` turns,
      numbered 1, 2, ...; every turn but the last is answered; the last is pending
      while the session is in progress and answered once it is completed, which
      happens exactly at the configured question count. */
  predicate Wf(s: InterviewState)
  {
    && 1 <= s.currentQuestionNum <= s.config.numQuestions
    && |s.history| == s.currentQuestionNum
    && (forall i :: 0 <= i < |s.history| ==> s.history[i].question.questionNumber == i + 1)
    && (forall i :: 0 <= i < |s.history| - 1 ==> Answered(s.history[i]))
    && (s.status == InProgress ==> Pending(s.history[|s.history| - 1]))
    && (s.status == Completed ==>
          s.currentQuestionNum == s.config.numQuestions && Answered(s.history[|s.history| - 1]))
  }

  // ---------------------------------------------------------------------------
  // Scores and the next difficulty
  // ---------------------------------------------------------------------------

  /** The scores of the evaluated turns, in ledger order. */
  function EvaluatedScores(h: seq<QuestionAnswerRecord>): (r: seq<int>)
    ensures |r| <= |h|
    ensures forall i :: 0 <= i < |r| ==> 1 <= r[i] <= 10
  {
    if |h| == 0 then []
    else
      var rest := EvaluatedScores(h[1..]);
      match h[0].evaluation
      case Some(e) => [e.score as int] + rest
      case None => rest
  }

  /** When every turn is evaluated, the scores are exactly the turns' scores. */
  lemma {:induction false} EvaluatedScoresOfEvaluated(h: seq<QuestionAnswerRecord>)
    requires forall i :: 0 <= i < |h| ==> h[i].evaluation.Some?
    ensures |EvaluatedScores(h)| == |h|
    ensures forall i :: 0 <= i < |h| ==> EvaluatedScores(h)[i] == h[i].evaluation.value.score
  {
    if |h| > 0 {
      EvaluatedScoresOfEvaluated(h[1..]);
    }
  }

  /** Scores are collected turn by turn: those of a ledger's two parts, in order.
      In particular appending a turn appends its score exactly when it is evaluated. */
  lemma {:induction false} EvaluatedScoresConcat(a: seq<QuestionAnswerRecord>, b: seq<QuestionAnswerRecord>)
    ensures EvaluatedScores(a + b) == EvaluatedScores(a) + EvaluatedScores(b)
  {
    if |a| == 0 {
      assert a + b == b;
    } else {
      assert (a + b)[1..] == a[1..] + b;
      EvaluatedScoresConcat(a[1..], b);
    }
  }

  /** Appending one turn appends its score when, and only when, it is evaluated. */
  lemma EvaluatedScoresAppend(h: seq<QuestionAnswerRecord>, x: QuestionAnswerRecord)
    ensures EvaluatedScores(h + [x]) ==
      EvaluatedScores(h) + (if x.evaluation.Some? then [x.evaluation.value.score as int] else [])
  {
    EvaluatedScoresConcat(h, [x]);
    assert [x][1..] == [];
  }

  /** The last n elements, or all of them when there are fewer (`s[-n:]`). */
  function LastN(s: seq<int>, n: nat): (r: seq<int>)
    ensures |r| == if |s| <= n then |s| else n
    ensures r == s[|s| - |r|..]
  {
    if |s| <= n then s else s[|s| - n..]
  }

  /** The difficulty the next question is asked at: the controller applied to the
      configured difficulty and the last three scores. It is never more than one
      level from the configured difficulty, however the session has gone. */
  function NextDifficulty(c: InterviewConfig, history: seq<QuestionAnswerRecord>): (d: Difficulty)
    ensures -1 <= Rank(d) - Rank(c.difficulty) <= 1
    ensures |EvaluatedScores(history)| == 0 ==> d == c.difficulty
    ensures var w := LastN(EvaluatedScores(history), RecentWindow);
      && (HighMean(w) && c.difficulty != Hard ==> Rank(d) == Rank(c.difficulty) + 1)
      && (LowMean(w) && c.difficulty != Easy ==> Rank(d) == Rank(c.difficulty) - 1)
      && (HighMean(w) && c.difficulty == Hard ==> d == Hard)
      && (LowMean(w) && c.difficulty == Easy ==> d == Easy)
      && (!HighMean(w) && !LowMean(w) ==> d == c.difficulty)
  {
    AdaptiveDifficulty(c.difficulty, LastN(EvaluatedScores(history), RecentWindow))
  }

  /** The prompt for the question following number `current`. */
  function NextQuestionPrompt(c: InterviewConfig, history: seq<QuestionAnswerRecord>, current: int): (p: QuestionPrompt)
  {
    QuestionPrompt(c.experienceYears, c.subject, NextDifficulty(c, history), current + 1, c.numQuestions, history)
  }

  /** The prompt for the first question: the configured difficulty, no history. */
  function FirstQuestionPrompt(req: StartInterviewRequest): (p: QuestionPrompt)
  {
    QuestionPrompt(req.experienceYears, req.subject, req.difficulty, 1, req.numQuestions, [])
  }

  function ConfigOf(req: StartInterviewRequest): InterviewConfig
  {
    InterviewConfig(req.experienceYears, req.subject, req.difficulty, req.numQuestions)
  }

  // ---------------------------------------------------------------------------
  // Start
  // ---------------------------------------------------------------------------

  /** Starts a session: one generated question, unanswered, at number 1. */
  function Start(id: Uuid, req: StartInterviewRequest, generate: QuestionPrompt -> Response)
    : (r: Result<(InterviewState, StartInterviewResponse), ServiceError>)
    ensures r.Success? <==> GenerateQuestion(generate, FirstQuestionPrompt(req)).Success?
    ensures r.Success? ==>
      var (s, resp) := r.value;
      && s.interviewId == id && s.config == ConfigOf(req)
      && s.status == InProgress && s.currentQuestionNum == 1
      && |s.history| == 1 && Pending(s.history[0])
      && s.history[0].question == resp.firstQuestion
      && resp.firstQuestion.questionNumber == 1
      && resp.interviewId == id && resp.totalQuestions == req.numQuestions && resp.config == s.config
      && GenerateQuestion(generate, FirstQuestionPrompt(req)) == Success(resp.firstQuestion)
    ensures r.Failure? ==> r.error == ProviderFailure(GenerateQuestion(generate, FirstQuestionPrompt(req)).error)
    ensures r.Success? && ValidStartRequest(req) ==> Wf(r.value.0)
  {
    match GenerateQuestion(generate, FirstQuestionPrompt(req))
    case Failure(e) => Failure(ProviderFailure(e))
    case Success(q) =>
      var config := ConfigOf(req);
      var s := InterviewState(id, config, 1, [NewRecord(q)], InProgress);
      Success((s, StartInterviewResponse(id, q, req.numQuestions, config)))
  }

  // ---------------------------------------------------------------------------
  // Submit
  // ---------------------------------------------------------------------------

  /** h' is h with its last turn given `answer` and `ev`, and everything before it
      unchanged; anything after that position is not constrained. */
  predicate RecordsAnswer(h: seq<QuestionAnswerRecord>, h': seq<QuestionAnswerRecord>, answer: string, ev: QuestionEvaluation)
  {
    && |h| > 0 && |h'| >= |h|
    && h'[..|h| - 1] == h[..|h| - 1]
    && h'[|h| - 1] == h[|h| - 1].(answer := Some(answer), evaluation := Some(ev))
  }

  /** The ledger with its last turn given `answer` and `ev`. */
  function AnswerLast(h: seq<QuestionAnswerRecord>, answer: string, ev: QuestionEvaluation)
    : (h': seq<QuestionAnswerRecord>)
    requires |h| > 0
    ensures |h'| == |h| && RecordsAnswer(h, h', answer, ev)
  {
    h[|h| - 1 := h[|h| - 1].(answer := Some(answer), evaluation := Some(ev))]
  }

  /** The evaluation prompt for an answer to the last question of s. */
  function EvaluationPromptFor(s: InterviewState, answer: string): EvaluationPrompt
    requires |s.history| > 0
  {
    EvaluationPrompt(s.history[|s.history| - 1].question, answer, s.config.experienceYears, s.config.subject)
  }

  /** Submits an answer to question `questionNumber`. Rejects a completed session,
      then a number other than the current one, before anything else happens. On
      success the last turn gains the answer and its evaluation; then either the
      session completes (the current number has reached the configured count) or
      one new unanswered turn is appended at the adapted difficulty. */
  function Submit(
    s: InterviewState, questionNumber: int, answer: string,
    evaluate: EvaluationPrompt -> Response, generate: QuestionPrompt -> Response)
    : (r: Result<(InterviewState, SubmitAnswerResponse), ServiceError>)
    ensures s.status == Completed ==> r == Failure(AlreadyCompleted)
    ensures s.status == InProgress && questionNumber != s.currentQuestionNum ==>
      r == Failure(InvalidQuestionNumber(s.currentQuestionNum, questionNumber))
    ensures Wf(s) ==> r != Failure(NoCurrentRecord)
    ensures s.status == InProgress && questionNumber == s.currentQuestionNum && |s.history| > 0 ==>
      var ev := EvaluateAnswer(evaluate, EvaluationPromptFor(s, answer));
      && (ev.Failure? ==> r == Failure(ProviderFailure(ev.error)))
      && (ev.Success? ==> r == Advance(s, answer, ev.value, generate))
    ensures r.Success? ==>
      && s.status == InProgress && questionNumber == s.currentQuestionNum && |s.history| > 0
      && EvaluateAnswer(evaluate, EvaluationPromptFor(s, answer)) == Success(r.value.1.evaluation)
  {
    if s.status == Completed then Failure(AlreadyCompleted)
    else if questionNumber != s.currentQuestionNum then
      Failure(InvalidQuestionNumber(s.currentQuestionNum, questionNumber))
    else if |s.history| == 0 then Failure(NoCurrentRecord)
    else
      match EvaluateAnswer(evaluate, EvaluationPromptFor(s, answer))
      case Failure(e) => Failure(ProviderFailure(e))
      case Success(ev) => Advance(s, answer, ev, generate)
  }

  /** What follows a successful evaluation of the answer to the last turn: the
      turn gains the answer and evaluation, then the session either completes (the
      current number has reached the configured count) or one new unanswered turn
      is appended, generated at the adapted difficulty. */
  function Advance(s: InterviewState, answer: string, ev: QuestionEvaluation, generate: QuestionPrompt -> Response)
    : (r: Result<(InterviewState, SubmitAnswerResponse), ServiceError>)
    requires |s.history| > 0
    ensures r.Success? <==>
      (s.currentQuestionNum < s.config.numQuestions ==>
         GenerateQuestion(generate, NextQuestionPrompt(s.config, AnswerLast(s.history, answer, ev), s.currentQuestionNum)).Success?)
    ensures r.Failure? ==>
      r.error == ProviderFailure(GenerateQuestion(generate, NextQuestionPrompt(s.config, AnswerLast(s.history, answer, ev), s.currentQuestionNum)).error)
    ensures r.Success? ==>
      var (s', resp) := r.value;
      && resp.evaluation == ev
      && RecordsAnswer(s.history, s'.history, answer, ev)
      && s'.interviewId == s.interviewId && s'.config == s.config
      && (resp.isComplete <==> s.currentQuestionNum >= s.config.numQuestions)
      && resp.questionsRemaining == s.config.numQuestions - s'.currentQuestionNum
      && resp.currentQuestionNum == s'.currentQuestionNum
    ensures r.Success? && r.value.1.isComplete ==>
      var (s', resp) := r.value;
      && s'.status == Completed && resp.nextQuestion == None
      && |s'.history| == |s.history| && s'.currentQuestionNum == s.currentQuestionNum
    ensures r.Success? && !r.value.1.isComplete ==>
      var (s', resp) := r.value;
      && s'.status == s.status && resp.nextQuestion.Some?
      && s'.currentQuestionNum == s.currentQuestionNum + 1
      && |s'.history| == |s.history| + 1
      && s'.history[|s.history|] == NewRecord(resp.nextQuestion.value)
      && resp.nextQuestion.value.questionNumber == s.currentQuestionNum + 1
      && GenerateQuestion(generate, NextQuestionPrompt(s.config, s'.history[..|s.history|], s.currentQuestionNum))
           == Success(resp.nextQuestion.value)
  {
    var history := AnswerLast(s.history, answer, ev);
    var isComplete := s.currentQuestionNum >= s.config.numQuestions;
    var remaining := s.config.numQuestions - s.currentQuestionNum;
    if isComplete then
      var s' := s.(history := history, status := Completed);
      Success((s', SubmitAnswerResponse(ev, None, true, remaining, s'.currentQuestionNum)))
    else
      match GenerateQuestion(generate, NextQuestionPrompt(s.config, history, s.currentQuestionNum))
      case Failure(e) => Failure(ProviderFailure(e))
      case Success(q) =>
        assert (history + [NewRecord(q)])[..|s.history|] == history;
        var s' := s.(history := history + [NewRecord(q)], currentQuestionNum := s.currentQuestionNum + 1);
        Success((s', SubmitAnswerResponse(ev, Some(q), false, remaining - 1, s'.currentQuestionNum)))
  }

  /** A valid submission (session in progress, current number, a turn to answer)
      succeeds exactly when the provider evaluates the answer and, unless this was
      the last question, generates the next one; otherwise it is a provider failure. */
  lemma SubmitSucceedsExactly(
    s: InterviewState, answer: string,
    evaluate: EvaluationPrompt -> Response, generate: QuestionPrompt -> Response)
    requires s.status == InProgress && |s.history| > 0
    ensures var r := Submit(s, s.currentQuestionNum, answer, evaluate, generate);
      var ev := EvaluateAnswer(evaluate, EvaluationPromptFor(s, answer));
      && (r.Success? <==>
            ev.Success? &&
            (s.currentQuestionNum < s.config.numQuestions ==>
               GenerateQuestion(generate, NextQuestionPrompt(s.config, AnswerLast(s.history, answer, ev.value), s.currentQuestionNum)).Success?))
      && (r.Failure? ==> r.error.ProviderFailure?)
  {
  }

  /** Recording the answer to the last turn of a well-formed session in progress,
      then either completing at the configured count or appending one pending turn
      with the next number, gives a well-formed session. */
  lemma AnsweringKeepsWf(s: InterviewState, s': InterviewState, answer: string, ev: QuestionEvaluation, isComplete: bool)
    requires Wf(s) && s.status == InProgress
    requires RecordsAnswer(s.history, s'.history, answer, ev)
    requires s'.config == s.config
    requires isComplete <==> s.currentQuestionNum >= s.config.numQuestions
    requires isComplete ==>
      s'.status == Completed && |s'.history| == |s.history| && s'.currentQuestionNum == s.currentQuestionNum
    requires !isComplete ==>
      && s'.status == InProgress && s'.currentQuestionNum == s.currentQuestionNum + 1
      && |s'.history| == |s.history| + 1 && Pending(s'.history[|s.history|])
      && s'.history[|s.history|].question.questionNumber == s.currentQuestionNum + 1
    ensures Wf(s')
  {
    var n := |s.history|;
    forall i | 0 <= i < n - 1
      ensures s'.history[i] == s.history[i]
    {
      assert s'.history[..n - 1][i] == s.history[..n - 1][i];
    }
  }

  /** Every successful submission keeps the ledger invariant. */
  lemma SubmitPreservesWf(
    s: InterviewState, questionNumber: int, answer: string,
    evaluate: EvaluationPrompt -> Response, generate: QuestionPrompt -> Response)
    requires Wf(s)
    requires Submit(s, questionNumber, answer, evaluate, generate).Success?
    ensures Wf(Submit(s, questionNumber, answer, evaluate, generate).value.0)
  {
    var (s', resp) := Submit(s, questionNumber, answer, evaluate, generate).value;
    AnsweringKeepsWf(s, s', answer, resp.evaluation, resp.isComplete);
  }

  /** Once a submission for number n has succeeded, submitting n again fails:
      the session is either completed or expects number n + 1. */
  lemma ResubmitRejected(
    s: InterviewState, n: int, a1: string, a2: string,
    evaluate: EvaluationPrompt -> Response, generate: QuestionPrompt -> Response)
    requires Submit(s, n, a1, evaluate, generate).Success?
    ensures var s' := Submit(s, n, a1, evaluate, generate).value.0;
            Submit(s', n, a2, evaluate, generate) == Failure(AlreadyCompleted)
            || Submit(s', n, a2, evaluate, generate) == Failure(InvalidQuestionNumber(n + 1, n))
  {
  }

  // ---------------------------------------------------------------------------
  // Running a whole session
  // ---------------------------------------------------------------------------

  /** A provider that always answers with well-formed objects. */
  ghost predicate WellBehaved(evaluate: EvaluationPrompt -> Response, generate: QuestionPrompt -> Response)
  {
    && (forall p :: EvaluateAnswer(evaluate, p).Success?)
    && (forall p :: GenerateQuestion(generate, p).Success?)
  }

  /** The session after a client answers each current question in turn. */
  function AnswerInTurn(
    s: InterviewState, answers: seq<string>,
    evaluate: EvaluationPrompt -> Response, generate: QuestionPrompt -> Response)
    : Result<InterviewState, ServiceError>
    decreases |answers|
  {
    if |answers| == 0 then Success(s)
    else
      match Submit(s, s.currentQuestionNum, answers[0], evaluate, generate)
      case Failure(e) => Failure(e)
      case Success(step) => AnswerInTurn(step.0, answers[1..], evaluate, generate)
  }

  /** With a well-behaved provider, answering the remaining questions in turn
      completes the session after exactly the configured number of answers, with
      every turn answered. */
  lemma {:induction false} AnsweringAllCompletes(
    s: InterviewState, answers: seq<string>,
    evaluate: EvaluationPrompt -> Response, generate: QuestionPrompt -> Response)
    requires Wf(s) && s.status == InProgress
    requires WellBehaved(evaluate, generate)
    requires |answers| == s.config.numQuestions - s.currentQuestionNum + 1
    ensures AnswerInTurn(s, answers, evaluate, generate).Success?
    ensures var f := AnswerInTurn(s, answers, evaluate, generate).value;
            && Wf(f) && f.status == Completed
            && |f.history| == s.config.numQuestions
            && (forall i :: 0 <= i < |f.history| ==> Answered(f.history[i]))
    decreases |answers|
  {
    var r := Submit(s, s.currentQuestionNum, answers[0], evaluate, generate);
    assert EvaluateAnswer(evaluate, EvaluationPromptFor(s, answers[0])).Success?;
    if s.currentQuestionNum < s.config.numQuestions {
      var h := AnswerLast(s.history, answers[0], EvaluateAnswer(evaluate, EvaluationPromptFor(s, answers[0])).value);
      assert GenerateQuestion(generate, NextQuestionPrompt(s.config, h, s.currentQuestionNum)).Success?;
    }
    assert r.Success?;
    SubmitPreservesWf(s, s.currentQuestionNum, answers[0], evaluate, generate);
    var s' := r.value.0;
    if s'.status == InProgress {
      AnsweringAllCompletes(s', answers[1..], evaluate, generate);
    } else {
      assert answers[1..] == [];
    }
  }

  // ---------------------------------------------------------------------------
  // Report
  // ---------------------------------------------------------------------------

  /** The turns with both answer and evaluation, in ledger order. */
  function AnsweredRecords(h: seq<QuestionAnswerRecord>): (r: seq<QuestionAnswerRecord>)
    ensures |r| <= |h|
    ensures forall i :: 0 <= i < |r| ==> Answered(r[i])
    ensures forall x :: x in r ==> x in h
  {
    if |h| == 0 then []
    else if Answered(h[0]) then [h[0]] + AnsweredRecords(h[1..])
    else AnsweredRecords(h[1..])
  }

  /** Answered turns are collected turn by turn: those of a ledger's two parts, in order. */
  lemma {:induction false} AnsweredRecordsConcat(a: seq<QuestionAnswerRecord>, b: seq<QuestionAnswerRecord>)
    ensures AnsweredRecords(a + b) == AnsweredRecords(a) + AnsweredRecords(b)
  {
    if |a| == 0 {
      assert a + b == b;
    } else {
      assert (a + b)[1..] == a[1..] + b;
      AnsweredRecordsConcat(a[1..], b);
    }
  }

  /** Appending one turn appends it to the answered turns when, and only when, it is answered. */
  lemma AnsweredRecordsAppend(h: seq<QuestionAnswerRecord>, x: QuestionAnswerRecord)
    ensures AnsweredRecords(h + [x]) == AnsweredRecords(h) + (if Answered(x) then [x] else [])
  {
    AnsweredRecordsConcat(h, [x]);
    assert [x][1..] == [];
  }

  /** A ledger whose turns are all answered is kept whole, in order. */
  lemma {:induction false} AnsweredRecordsOfAnswered(h: seq<QuestionAnswerRecord>)
    requires forall i :: 0 <= i < |h| ==> Answered(h[i])
    ensures AnsweredRecords(h) == h
  {
    if |h| > 0 {
      AnsweredRecordsOfAnswered(h[1..]);
      assert [h[0]] + h[1..] == h;
    }
  }

  /** A completed session has every turn answered, so the report covers all of them. */
  lemma CompletedCoversAll(s: InterviewState)
    requires Wf(s) && s.status == Completed
    ensures AnsweredRecords(s.history) == s.history
    ensures |AnsweredRecords(s.history)| == s.config.numQuestions
  {
    AnsweredRecordsOfAnswered(s.history);
  }

  /** The answer preview: the first 200 characters and "..." when longer, else all of it. */
  function AnswerSummary(a: string): (r: string)
    ensures |a| <= SummaryLength ==> r == a
    ensures |a| > SummaryLength ==> |r| == SummaryLength + 3 && r[..SummaryLength] == a[..SummaryLength] && r[SummaryLength..] == "..."
    ensures |r| <= SummaryLength + 3
  {
    if |a| > SummaryLength then a[..SummaryLength] + "..." else a
  }

  function BreakdownEntry(r: QuestionAnswerRecord): (b: QuestionBreakdown)
    requires Answered(r)
  {
    QuestionBreakdown(
      r.question.questionNumber, r.question.question, r.question.topic, r.question.difficulty,
      AnswerSummary(r.answer.value), r.evaluation.value.score, r.evaluation.value.feedback)
  }

  /** The per-question breakdown: one entry per answered turn, in order. */
  function Breakdown(answered: seq<QuestionAnswerRecord>): (b: seq<QuestionBreakdown>)
    requires forall i :: 0 <= i < |answered| ==> answered[i].answer.Some? && answered[i].evaluation.Some?
    ensures |b| == |answered|
    ensures forall i :: 0 <= i < |answered| ==>
      && b[i].questionNumber == answered[i].question.questionNumber
      && b[i].question == answered[i].question.question
      && b[i].topic == answered[i].question.topic
      && b[i].difficulty == answered[i].question.difficulty
      && b[i].score == answered[i].evaluation.value.score
      && b[i].feedback == answered[i].evaluation.value.feedback
      && b[i].answerSummary == AnswerSummary(answered[i].answer.value)
  {
    seq(|answered|, i requires 0 <= i < |answered| => BreakdownEntry(answered[i]))
  }

  /** Arithmetic mean, or 0 for no scores. */
  function Mean(xs: seq<int>): (m: real)
    ensures |xs| == 0 ==> m == 0.0
    ensures |xs| > 0 ==> m * (|xs| as real) == Sum(xs) as real
  {
    if |xs| == 0 then 0.0 else (Sum(xs) as real) / (|xs| as real)
  }

  /** The mean of scores in 1..10 lies in 1..10. */
  lemma MeanOfScoresBounded(xs: seq<int>)
    requires |xs| > 0
    requires forall i :: 0 <= i < |xs| ==> 1 <= xs[i] <= 10
    ensures 1.0 <= Mean(xs) <= 10.0
  {
    SumBounds(xs, 1, 10);
    QuotientBounds(Sum(xs) as real, |xs| as real);
  }

  /** n <= total <= 10 n bounds total / n to 1..10. */
  lemma QuotientBounds(total: real, n: real)
    requires n > 0.0 && n <= total <= 10.0 * n
    ensures 1.0 <= total / n <= 10.0
  {
    var q := total / n;
    assert q * n == total;
    if q < 1.0 {
      PositiveProduct(1.0 - q, n);
      assert false;
    }
    if q > 10.0 {
      PositiveProduct(q - 10.0, n);
      assert false;
    }
  }

  lemma PositiveProduct(a: real, b: real)
    requires a > 0.0 && b > 0.0
    ensures a * b > 0.0
  {
  }

  /** Turns scored 6, 8 and 10 average 8. */
  lemma MeanExample()
    ensures Mean([6, 8, 10]) == 8.0
  {
    assert Sum([6, 8, 10]) == 24;
  }

  /** The report's fallback overall score: the mean of the answered turns' scores. */
  function FallbackOverallScore(answered: seq<QuestionAnswerRecord>): (m: real)
    ensures ValidOverallScore(m)
    ensures |EvaluatedScores(answered)| == 0 ==> m == 0.0
    ensures |EvaluatedScores(answered)| > 0 ==>
      m == (Sum(EvaluatedScores(answered)) as real) / (|EvaluatedScores(answered)| as real)
  {
    var scores := EvaluatedScores(answered);
    MeanOfScoresValid(scores);
    Mean(scores)
  }

  /** The mean of scores in 1..10, or of none, is a valid overall score. */
  lemma MeanOfScoresValid(xs: seq<int>)
    requires forall i :: 0 <= i < |xs| ==> 1 <= xs[i] <= 10
    ensures ValidOverallScore(Mean(xs))
  {
    if |xs| > 0 {
      MeanOfScoresBounded(xs);
    }
  }

  /** Three answered turns scored 6, 8 and 10 fall back to an overall score of 8. */
  lemma FallbackExample(a: QuestionAnswerRecord, b: QuestionAnswerRecord, c: QuestionAnswerRecord)
    requires a.evaluation.Some? && a.evaluation.value.score == 6
    requires b.evaluation.Some? && b.evaluation.value.score == 8
    requires c.evaluation.Some? && c.evaluation.value.score == 10
    ensures FallbackOverallScore([a, b, c]) == 8.0
  {
    assert [a, b, c][1..] == [b, c];
    assert [b, c][1..] == [c];
    assert [c][1..] == [];
    assert EvaluatedScores([c]) == [10];
    assert EvaluatedScores([b, c]) == [8, 10];
    assert EvaluatedScores([a, b, c]) == [6, 8, 10];
    MeanExample();
  }

  /** The overall score: the provider's when it gives one (a number in 0..10),
      the fallback mean when it gives none. */
  function OverallScore(data: Response, answered: seq<QuestionAnswerRecord>): (r: Result<real, ProviderError>)
    ensures "overall_score" !in data ==> r == Success(FallbackOverallScore(answered))
    ensures "overall_score" in data ==>
      (r.Success? <==> data["overall_score"].JNum? && ValidOverallScore(data["overall_score"].n))
    ensures r.Success? && "overall_score" in data ==> r.value == data["overall_score"].n
    ensures r.Success? ==> ValidOverallScore(r.value)
    ensures r.Failure? ==> r.error == Malformed("overall_score")
  {
    if "overall_score" !in data then Success(FallbackOverallScore(answered))
    else match data["overall_score"]
      case JNum(x) => if ValidOverallScore(x) then Success(x) else Failure(Malformed("overall_score"))
      case _ => Failure(Malformed("overall_score"))
  }

  function ReportPromptFor(s: InterviewState): ReportPrompt
  {
    ReportPrompt(s.config.experienceYears, s.config.subject, AnsweredRecords(s.history))
  }

  /** The final report. An unfinished session is refused; otherwise the provider
      is asked once about the answered turns, its fields are defaulted, and the
      breakdown and (when the provider omits it) the overall score are computed
      locally. */
  function Report(s: InterviewState, report: ReportPrompt -> Response): (r: Result<FinalReportResponse, ServiceError>)
    ensures s.status != Completed ==> r == Failure(NotCompleted(s.status))
    ensures s.status == Completed ==>
      var fields := ReportFields(report(ReportPromptFor(s)), AnsweredRecords(s.history));
      && (r.Success? <==> fields.Success?)
      && (fields.Failure? ==> r == Failure(ProviderFailure(fields.error)))
      && (r.Success? ==>
            && r.value.overallScore == fields.value.overall
            && r.value.detailedFeedback == fields.value.detailedFeedback
            && r.value.strongAreas == fields.value.strongAreas
            && r.value.weakAreas == fields.value.weakAreas
            && r.value.recommendations == fields.value.recommendations
            && r.value.hireRecommendation == fields.value.hire)
    ensures r.Success? ==>
      var answered := AnsweredRecords(s.history);
      && r.value.interviewId == s.interviewId
      && r.value.experienceYears == s.config.experienceYears && r.value.subject == s.config.subject
      && ValidOverallScore(r.value.overallScore)
      && r.value.questionWiseBreakdown == Breakdown(answered)
      && r.value.questionsAnswered == |answered|
      && r.value.totalQuestions == s.config.numQuestions
      && ("overall_score" !in report(ReportPromptFor(s)) ==> r.value.overallScore == FallbackOverallScore(answered))
    ensures s.status == Completed && report(ReportPromptFor(s)) == map[] ==>
      && r.Success?
      && r.value.hireRecommendation == UndeterminedHire
      && r.value.detailedFeedback == ""
      && r.value.strongAreas == [] && r.value.weakAreas == [] && r.value.recommendations == []
  {
    if s.status != Completed then Failure(NotCompleted(s.status))
    else
      var answered := AnsweredRecords(s.history);
      var data := report(ReportPromptFor(s));
      match ReportFields(data, answered)
      case Failure(e) => Failure(ProviderFailure(e))
      case Success(f) =>
        Success(FinalReportResponse(
          s.interviewId, f.overall, s.config.numQuestions, |answered|,
          s.config.experienceYears, s.config.subject, f.detailedFeedback,
          f.strongAreas, f.weakAreas, Breakdown(answered), f.recommendations, f.hire))
  }

  datatype ReportFieldValues = ReportFieldValues(
    overall: real, detailedFeedback: string, strongAreas: seq<string>, weakAreas: seq<string>,
    recommendations: seq<string>, hire: string)

  /** The provider-supplied report fields, each defaulted when missing. */
  function ReportFields(data: Response, answered: seq<QuestionAnswerRecord>): (r: Result<ReportFieldValues, ProviderError>)
    ensures r.Success? <==>
      && OverallScore(data, answered).Success?
      && ReadText(data, "detailed_feedback", "").Success?
      && ReadList(data, "strong_areas").Success?
      && ReadList(data, "weak_areas").Success?
      && ReadList(data, "recommendations").Success?
      && ReadText(data, "hire_recommendation", UndeterminedHire).Success?
    ensures r.Success? ==>
      && r.value.overall == OverallScore(data, answered).value
      && r.value.detailedFeedback == ReadText(data, "detailed_feedback", "").value
      && r.value.strongAreas == ReadList(data, "strong_areas").value
      && r.value.weakAreas == ReadList(data, "weak_areas").value
      && r.value.recommendations == ReadList(data, "recommendations").value
      && r.value.hire == ReadText(data, "hire_recommendation", UndeterminedHire).value
    ensures r.Success? ==> ValidOverallScore(r.value.overall)
    ensures r.Success? && "overall_score" !in data ==> r.value.overall == FallbackOverallScore(answered)
    ensures data == map[] ==> r == Success(ReportFieldValues(FallbackOverallScore(answered), "", [], [], [], UndeterminedHire))
  {
    var overall :- OverallScore(data, answered);
    var feedback :- ReadText(data, "detailed_feedback", "");
    var strong :- ReadList(data, "strong_areas");
    var weak :- ReadList(data, "weak_areas");
    var recs :- ReadList(data, "recommendations");
    var hire :- ReadText(data, "hire_recommendation", UndeterminedHire);
    Success(ReportFieldValues(overall, feedback, strong, weak, recs, hire))
  }

  // ---------------------------------------------------------------------------
  // Current question
  // ---------------------------------------------------------------------------

  /** The question awaiting an answer: none once completed, else the last turn's. */
  function CurrentQuestion(s: InterviewState): (r: Option<InterviewQuestion>)
    ensures s.status == Completed ==> r == None
    ensures Wf(s) && s.status == InProgress ==>
      && r.Some?
      && r.value.questionNumber == s.currentQuestionNum
      && exists i :: 0 <= i < |s.history| && s.history[i].question == r.value && Pending(s.history[i])
  {
    if s.status == Completed then None
    else if |s.history| > 0 then Some(s.history[|s.history| - 1].question)
    else None
  }
}

=== FILE: storage.dfy ===
/** The in-memory session store: two maps keyed by session id, one holding the
    session state and one the last-touch time, with idle expiry. The clock is an
    explicit `now` in microseconds; a session is expired once strictly more than
    `timeout` has elapsed since it was last touched. */
module Storage {
  import opened Models

  datatype Store = Store(
    sessions: map<Uuid, InterviewState>,
    stamps: map<Uuid, int>,
    timeout: int)

  const MicrosPerMinute: int := 60 * 1000 * 1000

  /** A fresh, empty store whose sessions expire after the given idle minutes. */
  function NewStore(timeoutMinutes: int): (st: Store)
    ensures Consistent(st) && Keyed(st)
    ensures |st.sessions| == 0
    ensures st.timeout == timeoutMinutes * MicrosPerMinute
  {
    Store(map[], map[], timeoutMinutes * MicrosPerMinute)
  }

  /** The two maps always hold the same ids. */
  predicate Consistent(st: Store)
  {
    st.sessions.Keys == st.stamps.Keys
  }

  /** Every session is stored under its own id. */
  predicate Keyed(st: Store)
  {
    forall id :: id in st.sessions ==> st.sessions[id].interviewId == id
  }

  /** The session under id has been idle for strictly longer than the timeout. */
  predicate Expired(st: Store, id: Uuid, now: int)
  {
    id in st.stamps && now - st.stamps[id] > st.timeout
  }

  /** Stores a session under its own id stamped `now`, overwriting any entry
      already there; the shared body of `create` and `update`. */
  function Put(st: Store, s: InterviewState, now: int): (st': Store)
  {
    st.(sessions := st.sessions[s.interviewId := s], stamps := st.stamps[s.interviewId := now])
  }

  /** Stores a new session and stamps it; an existing entry with the same id is
      silently replaced, not rejected. */
  function Create(st: Store, s: InterviewState, now: int): (r: (Store, InterviewState))
    ensures r.1 == s
    ensures r.0.sessions == st.sessions[s.interviewId := s]
    ensures r.0.stamps == st.stamps[s.interviewId := now]
    ensures r.0.timeout == st.timeout
    ensures Consistent(st) ==> Consistent(r.0)
    ensures Keyed(st) ==> Keyed(r.0)
  {
    (Put(st, s, now), s)
  }

  /** Reads a session. An absent id reads as None and changes nothing; an expired
      one reads as None and is removed from both maps; a live one is returned and
      its timestamp reset to `now`. */
  function Get(st: Store, id: Uuid, now: int): (r: (Store, Option<InterviewState>))
    ensures id !in st.sessions ==> r == (st, None)
    ensures id in st.sessions && Expired(st, id, now) ==>
      r.1 == None && r.0.sessions == st.sessions - {id} && r.0.stamps == st.stamps - {id}
    ensures id in st.sessions && !Expired(st, id, now) ==>
      r.1 == Some(st.sessions[id]) && r.0.sessions == st.sessions && r.0.stamps == st.stamps[id := now]
    ensures r.1.Some? <==> id in st.sessions && !Expired(st, id, now)
    ensures r.0.timeout == st.timeout
    ensures Consistent(st) ==> Consistent(r.0)
    ensures Keyed(st) ==> Keyed(r.0)
  {
    if id !in st.sessions then (st, None)
    else if id in st.stamps && now - st.stamps[id] > st.timeout then
      (st.(sessions := st.sessions - {id}, stamps := st.stamps - {id}), None)
    else
      (st.(stamps := st.stamps[id := now]), Some(st.sessions[id]))
  }

  /** Replaces a session and restamps it; an absent id is stored, not rejected. */
  function Update(st: Store, s: InterviewState, now: int): (r: (Store, InterviewState))
    ensures r.1 == s
    ensures s.interviewId in r.0.sessions && r.0.sessions[s.interviewId] == s
    ensures r.0.stamps == st.stamps[s.interviewId := now]
    ensures forall id :: id in st.sessions && id != s.interviewId ==>
      id in r.0.sessions && r.0.sessions[id] == st.sessions[id]
    ensures r.0.sessions.Keys == st.sessions.Keys + {s.interviewId}
    ensures r.0.timeout == st.timeout
    ensures Consistent(st) ==> Consistent(r.0)
    ensures Keyed(st) ==> Keyed(r.0)
  {
    (Put(st, s, now), s)
  }

  /** Removes a session; true iff it was there. Other ids are untouched. */
  function Delete(st: Store, id: Uuid): (r: (Store, bool))
    ensures r.1 <==> id in st.sessions
    ensures r.0.sessions == st.sessions - {id}
    ensures r.1 ==> r.0.stamps == st.stamps - {id}
    ensures !r.1 ==> r.0 == st
    ensures r.0.timeout == st.timeout
    ensures Consistent(st) ==> Consistent(r.0)
    ensures Keyed(st) ==> Keyed(r.0)
  {
    if id in st.sessions then
      (st.(sessions := st.sessions - {id}, stamps := st.stamps - {id}), true)
    else
      (st, false)
  }

  /** Whether a live session exists: a read through `Get`, with its side effects. */
  function Exists(st: Store, id: Uuid, now: int): (r: (Store, bool))
    ensures r.1 <==> id in st.sessions && !Expired(st, id, now)
    ensures r.0 == Get(st, id, now).0
    ensures r.1 <==> Get(st, id, now).1.Some?
  {
    var (st', s) := Get(st, id, now);
    (st', s.Some?)
  }

  /** The ids whose last touch is strictly more than the timeout before `now`. */
  function ExpiredIds(st: Store, now: int): (ids: set<Uuid>)
    ensures forall id :: id in ids <==> Expired(st, id, now)
  {
    set id | id in st.stamps && now - st.stamps[id] > st.timeout
  }

  /** Removes every expired session and counts them. Live entries are untouched. */
  function CleanupExpired(st: Store, now: int): (r: (Store, nat))
    requires Consistent(st)
    ensures Consistent(r.0)
    ensures r.0.sessions.Keys == st.sessions.Keys - ExpiredIds(st, now)
    ensures forall id :: id in r.0.sessions ==> r.0.sessions[id] == st.sessions[id] && r.0.stamps[id] == st.stamps[id]
    ensures r.1 == |st.sessions| - |r.0.sessions|
    ensures r.0.timeout == st.timeout
    ensures Keyed(st) ==> Keyed(r.0)
    ensures forall id :: !Expired(r.0, id, now)
  {
    var expired := ExpiredIds(st, now);
    var st' := st.(sessions := st.sessions - expired, stamps := st.stamps - expired);
    RemovedCount(st.sessions, expired);
    (st', |expired|)
  }

  /** Removing a subset of a map's keys shrinks it by exactly their number. */
  lemma RemovedCount<V>(m: map<Uuid, V>, ks: set<Uuid>)
    requires ks <= m.Keys
    ensures |m - ks| == |m| - |ks|
  {
    assert (m - ks).Keys == m.Keys - ks;
    assert |m.Keys - ks| == |m.Keys| - |ks|;
  }

  /** The number of live sessions, after removing the expired ones. */
  function GetActiveCount(st: Store, now: int): (r: (Store, nat))
    requires Consistent(st)
    ensures r.1 == |r.0.sessions|
    ensures r.0 == CleanupExpired(st, now).0
    ensures r.0.sessions.Keys == st.sessions.Keys - ExpiredIds(st, now)
    ensures Consistent(r.0)
  {
    var (st', _) := CleanupExpired(st, now);
    (st', |st'.sessions|)
  }

  // ---------------------------------------------------------------------------
  // Properties relating several operations
  // ---------------------------------------------------------------------------

  /** A stored session reads back until strictly more than the timeout has passed:
      at exactly `timeout` after the stamp it is still live, one tick later it is
      gone and removed. */
  lemma CreateThenGet(st: Store, s: InterviewState, t: int, d: int)
    requires st.timeout >= 0 && d >= 0
    ensures d <= st.timeout ==> Get(Create(st, s, t).0, s.interviewId, t + d).1 == Some(s)
    ensures d > st.timeout ==> Get(Create(st, s, t).0, s.interviewId, t + d).1 == None
    ensures d > st.timeout ==> s.interviewId !in Get(Create(st, s, t).0, s.interviewId, t + d).0.sessions
  {
  }

  /** Reading extends a session's lifetime: after a successful read at t, a read
      at any time up to t + timeout succeeds again and returns the same state. */
  lemma GetRefreshes(st: Store, id: Uuid, t: int, t': int)
    requires Get(st, id, t).1.Some?
    requires t <= t' <= t + st.timeout
    ensures Get(Get(st, id, t).0, id, t').1 == Get(st, id, t).1
  {
  }

  /** Touch at 0, read at timeout - 1, read again at 2 * timeout - 2: both reads succeed. */
  lemma RefreshScenario(st: Store, s: InterviewState)
    requires st.timeout >= 1
    ensures var st1 := Create(st, s, 0).0;
            var (st2, r2) := Get(st1, s.interviewId, st.timeout - 1);
            r2 == Some(s) && Get(st2, s.interviewId, 2 * st.timeout - 2).1 == Some(s)
  {
  }

  /** A second delete of the same id reports false and changes nothing. */
  lemma DeleteTwice(st: Store, id: Uuid)
    ensures var st1 := Delete(st, id).0;
            Delete(st1, id) == (st1, false)
  {
  }

  /** Sweeping twice at the same instant removes nothing the second time. */
  lemma CleanupIdempotent(st: Store, now: int)
    requires Consistent(st)
    ensures var st1 := CleanupExpired(st, now).0;
            CleanupExpired(st1, now) == (st1, 0)
  {
    NothingExpiredNoOp(CleanupExpired(st, now).0, now);
  }

  /** A sweep over a store with nothing expired changes nothing and counts zero. */
  lemma NothingExpiredNoOp(st: Store, now: int)
    requires Consistent(st)
    requires forall id :: !Expired(st, id, now)
    ensures CleanupExpired(st, now) == (st, 0)
  {
    assert ExpiredIds(st, now) == {};
    assert st.sessions - {} == st.sessions;
    assert st.stamps - {} == st.stamps;
  }

  /** A sweep never changes what a read at the same instant returns. */
  lemma CleanupPreservesReads(st: Store, id: Uuid, now: int)
    requires Consistent(st)
    ensures Get(CleanupExpired(st, now).0, id, now).1 == Get(st, id, now).1
  {
  }
}

=== FILE: upload.dfy ===
/** The validation that precedes a transcription request: the file extension
    (the text after the last dot, lower-cased) must be a supported audio format
    when there is one, the content must not exceed 25 MiB, and it must not be
    empty — checked in that order, the first failure deciding the response. The
    upload's content is represented by its length in bytes. */
module Upload {
  import opened Models

  const SupportedExtensions: set<string> :=
    {".mp3", ".mp4", ".mpeg", ".mpga", ".m4a", ".wav", ".webm", ".ogg", ".oga"}

  /** The supported extensions in sorted order, as the rejection message lists them. */
  const SortedExtensions: seq<string> :=
    [".m4a", ".mp3", ".mp4", ".mpeg", ".mpga", ".oga", ".ogg", ".wav", ".webm"]

  /** The upload limit of the transcription provider: 25 MiB. */
  const MaxFileSize: int := 25 * 1024 * 1024

  const BadRequest: int := 400
  const PayloadTooLarge: int := 413

  const UnsupportedDetail: string := "Unsupported file format. Supported: " + Join(SortedExtensions, ", ")
  const TooLargeDetail: string := "File too large. Maximum size is 25MB"
  const EmptyDetail: string := "Empty audio file"

  datatype Verdict = Accept | Reject(status: int, detail: string)

  /** The elements of xs separated by sep. */
  function Join(xs: seq<string>, sep: string): string
  {
    if |xs| == 0 then ""
    else if |xs| == 1 then xs[0]
    else xs[0] + sep + Join(xs[1..], sep)
  }

  /** Lexicographic order on strings, by character code. */
  predicate StrLess(a: string, b: string)
  {
    if |a| == 0 then |b| > 0
    else if |b| == 0 then false
    else a[0] < b[0] || (a[0] == b[0] && StrLess(a[1..], b[1..]))
  }

  /** The message's list names exactly the supported extensions. */
  lemma SortedExtensionsAreSupported()
    ensures (set i | 0 <= i < |SortedExtensions| :: SortedExtensions[i]) == SupportedExtensions
  {
    var listed := set i | 0 <= i < |SortedExtensions| :: SortedExtensions[i];
    assert SortedExtensions[0] in listed;
    assert SortedExtensions[1] in listed;
    assert SortedExtensions[2] in listed;
    assert SortedExtensions[3] in listed;
    assert SortedExtensions[4] in listed;
    assert SortedExtensions[5] in listed;
    assert SortedExtensions[6] in listed;
    assert SortedExtensions[7] in listed;
    assert SortedExtensions[8] in listed;
  }

  /** The message lists the extensions in strictly increasing order, as sorting gives. */
  lemma SortedExtensionsAreSorted()
    ensures forall i :: 0 <= i < |SortedExtensions| - 1 ==> StrLess(SortedExtensions[i], SortedExtensions[i + 1])
  {
    assert StrLess(".m4a", ".mp3");
    assert StrLess(".mp3", ".mp4");
    assert StrLess("p4", "peg");
    assert StrLess(".mp4", ".mpeg");
    assert StrLess("eg", "ga");
    assert StrLess(".mpeg", ".mpga");
    assert StrLess(".mpga", ".oga");
    assert StrLess("ga", "gg");
    assert StrLess(".oga", ".ogg");
    assert StrLess(".ogg", ".wav");
    assert StrLess(".wav", ".webm");
  }

  /** Every supported extension is a dot and at least three characters starting
      with m, o or w. */
  lemma SupportedShape()
    ensures forall e :: e in SupportedExtensions ==>
      |e| >= 4 && e[0] == '.' && (e[1] == 'm' || e[1] == 'o' || e[1] == 'w')
  {
  }

  // ---------------------------------------------------------------------------
  // Extensions
  // ---------------------------------------------------------------------------

  /** ASCII lower-casing of one character. */
  function LowerChar(c: char): char
  {
    if 'A' <= c <= 'Z' then (c as int + 32) as char else c
  }

  /** ASCII lower-casing of a string, character by character. */
  function Lower(s: string): (r: string)
    ensures |r| == |s|
  {
    if |s| == 0 then [] else Lower(s[..|s| - 1]) + [LowerChar(s[|s| - 1])]
  }

  /** Each character of the lower-cased string is the lower-cased character. */
  lemma {:induction false} LowerAt(s: string, i: nat)
    requires i < |s|
    ensures Lower(s)[i] == LowerChar(s[i])
  {
    if i < |s| - 1 {
      LowerAt(s[..|s| - 1], i);
    }
  }

  /** The text after the last dot of a name that has one (what splitting once
      from the right at "." leaves last); none for a name without a dot. */
  function AfterLastDot(name: string): Option<string>
  {
    if |name| == 0 then None
    else if name[|name| - 1] == '.' then Some("")
    else match AfterLastDot(name[..|name| - 1])
      case None => None
      case Some(t) => Some(t + [name[|name| - 1]])
  }

  /** A name has text after a last dot exactly when it contains a dot, and that
      text contains none. */
  lemma {:induction false} AfterLastDotFound(name: string)
    ensures AfterLastDot(name).None? <==> '.' !in name
    ensures AfterLastDot(name).Some? ==> '.' !in AfterLastDot(name).value
  {
    if |name| > 0 {
      var init := name[..|name| - 1];
      assert name == init + [name[|name| - 1]];
      AfterLastDotFound(init);
    }
  }

  /** Splitting a name at a dot with no dot after it finds that dot. */
  lemma {:induction false} AfterLastDotSplit(stem: string, tail: string)
    requires '.' !in tail
    ensures AfterLastDot(stem + "." + tail) == Some(tail)
  {
    var name := stem + "." + tail;
    if |tail| > 0 {
      var init := tail[..|tail| - 1];
      assert name[..|name| - 1] == stem + "." + init;
      assert tail[|tail| - 1] in tail;
      AfterLastDotSplit(stem, init);
      assert init + [tail[|tail| - 1]] == tail;
    }
  }

  /** The extension the endpoint checks: "." and the lower-cased text after the
      last dot when the name has a dot, else the empty string. */
  function Extension(name: string): string
  {
    match AfterLastDot(name)
    case None => ""
    case Some(t) => "." + Lower(t)
  }

  /** Splitting at any dot that has no dot after it gives the extension. */
  lemma ExtensionOfSplit(stem: string, tail: string)
    requires '.' !in tail
    ensures Extension(stem + "." + tail) == "." + Lower(tail)
  {
    AfterLastDotSplit(stem, tail);
  }

  /** A name without a dot has no extension; a name with one has an extension
      that starts with a dot and contains no other. */
  lemma ExtensionShape(name: string)
    ensures '.' !in name <==> Extension(name) == ""
    ensures '.' in name ==> Extension(name)[0] == '.' && '.' !in Extension(name)[1..]
  {
    AfterLastDotFound(name);
    if '.' in name {
      var t := AfterLastDot(name).value;
      LowerKeepsDots(t);
      assert Extension(name)[1..] == Lower(t);
    }
  }

  /** Lower-casing keeps every dot where it is and creates none. */
  lemma LowerKeepsDots(s: string)
    ensures '.' in Lower(s) <==> '.' in s
  {
    forall i | 0 <= i < |s|
      ensures Lower(s)[i] == '.' <==> s[i] == '.'
    {
      LowerAt(s, i);
    }
  }

  /** Lower-casing commutes with appending a character. */
  lemma LowerAppend(s: string, c: char)
    ensures Lower(s + [c]) == Lower(s) + [LowerChar(c)]
  {
    assert (s + [c])[..|s|] == s;
  }

  /** Lower-casing a name lower-cases the text after its last dot, found at the
      same place. */
  lemma {:induction false} AfterLastDotIgnoresCase(s: string)
    ensures AfterLastDot(Lower(s)).None? <==> AfterLastDot(s).None?
    ensures AfterLastDot(s).Some? ==> AfterLastDot(Lower(s)) == Some(Lower(AfterLastDot(s).value))
  {
    if |s| > 0 {
      var init := s[..|s| - 1];
      var c := s[|s| - 1];
      assert s == init + [c];
      LowerAppend(init, c);
      assert Lower(s)[..|s| - 1] == Lower(init);
      AfterLastDotIgnoresCase(init);
      if c != '.' && AfterLastDot(init).Some? {
        LowerAppend(AfterLastDot(init).value, c);
      }
    }
  }

  /** Lower-casing twice is lower-casing once. */
  lemma {:induction false} LowerIdempotent(s: string)
    ensures Lower(Lower(s)) == Lower(s)
  {
    if |s| > 0 {
      var init := s[..|s| - 1];
      var l := Lower(s);
      assert l[..|s| - 1] == Lower(init);
      LowerIdempotent(init);
    }
  }

  /** Lower-casing a name does not change its extension. */
  lemma ExtensionIgnoresCase(name: string)
    ensures Extension(Lower(name)) == Extension(name)
  {
    AfterLastDotIgnoresCase(name);
    if AfterLastDot(name).Some? {
      LowerIdempotent(AfterLastDot(name).value);
    }
  }

  // ---------------------------------------------------------------------------
  // Validation
  // ---------------------------------------------------------------------------

  /** The extension the check looks at: an absent or empty file name has none. */
  function CheckedExtension(filename: Option<string>): string
  {
    if filename.Some? && filename.value != "" then Extension(filename.value) else ""
  }

  /** The verdict on an upload with the given name and content length. */
  function ValidateUpload(filename: Option<string>, size: nat): (v: Verdict)
    ensures v == Accept <==>
      (CheckedExtension(filename) == "" || CheckedExtension(filename) in SupportedExtensions) && 0 < size <= MaxFileSize
    ensures CheckedExtension(filename) != "" && CheckedExtension(filename) !in SupportedExtensions ==>
      v == Reject(BadRequest, UnsupportedDetail)
    ensures v == Reject(PayloadTooLarge, TooLargeDetail) <==>
      (CheckedExtension(filename) == "" || CheckedExtension(filename) in SupportedExtensions) && size > MaxFileSize
    ensures v == Reject(BadRequest, EmptyDetail) <==>
      (CheckedExtension(filename) == "" || CheckedExtension(filename) in SupportedExtensions) && size == 0
  {
    if filename.Some? && filename.value != "" && Extension(filename.value) != ""
       && Extension(filename.value) !in SupportedExtensions then
      Reject(BadRequest, UnsupportedDetail)
    else if size > MaxFileSize then Reject(PayloadTooLarge, TooLargeDetail)
    else if size == 0 then Reject(BadRequest, EmptyDetail)
    else Accept
  }

  /** The verdict does not depend on the case of the file name. */
  lemma ValidationIgnoresCase(name: string, size: nat)
    ensures ValidateUpload(Some(Lower(name)), size) == ValidateUpload(Some(name), size)
  {
    ExtensionIgnoresCase(name);
  }

  /** A name without a dot skips the extension check: only the size decides. */
  lemma NoDotSkipsExtensionCheck(name: string, size: nat)
    requires '.' !in name
    ensures ValidateUpload(Some(name), size) == ValidateUpload(None, size)
  {
    AfterLastDotFound(name);
  }

  /** An absent or empty name skips the extension check. */
  lemma NoNameExamples()
    ensures ValidateUpload(None, 1) == Accept
    ensures ValidateUpload(Some(""), 1) == Accept
  {
  }

  /** A name whose text after its last dot, lower-cased, is a supported extension
      is accepted at any size within the limit, whatever the case it is written in. */
  lemma AcceptedAfterLastDot(stem: string, tail: string, size: nat)
    requires '.' !in tail
    requires "." + Lower(tail) in SupportedExtensions
    requires 0 < size <= MaxFileSize
    ensures ValidateUpload(Some(stem + "." + tail), size) == Accept
  {
    ExtensionOfSplit(stem, tail);
  }

  /** A name whose text after its last dot is not a supported extension is refused
      with 400 before the size is looked at; this includes a name ending in a dot. */
  lemma RefusedAfterLastDot(stem: string, tail: string, size: nat)
    requires '.' !in tail
    requires "." + Lower(tail) !in SupportedExtensions
    ensures ValidateUpload(Some(stem + "." + tail), size) == Reject(BadRequest, UnsupportedDetail)
  {
    ExtensionOfSplit(stem, tail);
  }

  /** The extension is compared after lower-casing: "A.MP3" passes. */
  lemma UpperCaseExample()
    ensures ValidateUpload(Some("A.MP3"), 1) == Accept
  {
    assert Lower("MP3") == "mp3";
    assert "." + "mp3" == ".mp3";
    AcceptedAfterLastDot("A", "MP3", 1);
    assert "A" + "." + "MP3" == "A.MP3";
  }

  /** A trailing dot yields the extension "." and is refused, even for an empty file. */
  lemma TrailingDotExample()
    ensures ValidateUpload(Some("x."), 0) == Reject(BadRequest, UnsupportedDetail)
  {
    assert Lower("") == "";
    assert "." !in SupportedExtensions by {
      SupportedShape();
    }
    RefusedAfterLastDot("x", "", 0);
    assert "x" + "." + "" == "x.";
  }

  /** Size edge cases: exactly 25 MiB passes, one byte more is too large, and an
      empty file is refused. */
  lemma SizeExamples()
    ensures ValidateUpload(None, MaxFileSize) == Accept
    ensures ValidateUpload(None, MaxFileSize + 1) == Reject(PayloadTooLarge, TooLargeDetail)
    ensures ValidateUpload(None, 0) == Reject(BadRequest, EmptyDetail)
  {
  }
}
